=== FILE: README.md ===
# jopenjpeg2: the decode-on-miss tile path, modelled in Dafny

jopenjpeg2 reads JPEG 2000 images, Sentinel-2 band files in particular, for the
BEAM toolbox. It has two back ends.

- **`Jp2ExeImage`** runs an external decoder once per tile. The decoder writes one PGX
  file per component into a per-package cache directory. The image answers a tile
  request from the component-0 artifact `<stem>_R<r>_TX<x>_TY<y>_0.pgx`. When that
  artifact is missing it decodes the tile first (decode on miss). When the artifact
  is still missing afterwards, it zero-fills the buffer.
- **The native library `jopenjpeg2.c`** wraps OpenJPEG. It opens an image, reports its
  layout, reads a tile or a region into a `short` buffer and disposes the handle.

The Sentinel-2 reader `Sentinel2ProductReader2` renders a band level by level. For
each rendered tile, `computeRect` picks the JPEG 2000 tile, decodes it on a miss and
parses its artifact. `S2FileNameInfo` parses Sentinel-2 band file names and finds
the other bands of the same product.

Each module follows one part of the program:

| file | module | models |
|---|---|---|
| `options.dfy` | `Options` | an optional value (a Java `null`, a C `NULL`) |
| `java_int.dfy` | `JavaInt` | Java's 32-bit `int`: wrap-around `*` and `+`, the `(short)` cast, `>>` with its count taken mod 32, truncating `/` |
| `text.dfy` | `Text` | `%d` and `Integer.parseInt`, `String.split(" ")`, `ImageInputStream.readLine` |
| `layout.dfy` | `Layout` | `Jp2Image.Layout`, the per-level tile sizes, the decoder's tile index, the Sentinel-2 reader's tile geometry |
| `raster.dfy` | `Raster` | the top-left placement rule (copy, zero pad, crop) shared by the Java parser and `jopj_copy_data`, plus a nested-loop method for it |
| `pgx.dfy` | `Pgx` | the PGX tile parser `readTileData(File, short[])` with every exception it raises |
| `artifacts.dfy` | `Artifacts` | the output and artifact names, and why they are injective in the key |
| `exe_image.dfy` | `ExeImage` | `Jp2ExeImage` as a state machine over the cache directory and a decoder outcome |
| `op_image.dfy` | `OpImage` | `Sentinel2ProductReader2.Jp2ExeOpImage.computeRect` |
| `native.dfy` | `Native` | `jopenjpeg2.c`: open, copy, tile read, region read, image info, dispose |
| `file_name_info.dfy` | `FileNameInfo` | `S2FileNameInfo`: `create`, `getBand()`, `getBand(String)` |

The modelling choices are these:

- **The cache directory** is a `map<string, seq<byte>>` from file names to contents.
- **A decoder run** is a parameter (`Launch`). Either the process could not be
  started, or it exited with a code and maybe left a component-0 artifact.
- **The OpenJPEG calls** (`opj_*`) are parameters of the C functions:
  - for each step, whether it succeeded;
  - the decoded component;
  - the codestream information.
- **C integers.**
  - `uint32` values stored into an `int` keep their low 32 bits (`AsInt`).
  - Unsigned `-` and `*` wrap modulo 2^32.
  - A C loop with a negative bound runs no iterations.
- **Java `int` arithmetic** wraps where the code could overflow. Examples are
  `width * height` in the parser and the tile index.
- **The decoder tile index.** `ExeImage` hands the decoder the index as
  `Jp2ExeImage.java:174` computes it, from `numYTiles`. Every opened image has the
  square 3 x 3 layout, where that index is the row-major one. `OpImage` uses the
  row-major index of `Sentinel2ProductReader2.java:280`.
- **The `.` in the Sentinel-2 file name pattern** is unescaped. It therefore
  accepts any character other than a line terminator before `jp2`.
  `FileNameInfo.CreateComposed` is stated for every such separator.

## Model

| member | source | states |
|---|---|---|
| JavaInt.Shr | src/main/java/jopenjpeg2/Jp2ExeImage.java:101-102 | Java `x >> r` rounds toward negative infinity: the result times 2^r brackets `x` from below, and the sign is kept |
| JavaInt.JavaDiv | src/main/java/org/esa/beam/dataio/sentinel2/Sentinel2ProductReader2.java:238-239 | Java integer `/` truncates toward zero: the remainder is smaller than the divisor and has the sign of the dividend |
| JavaInt.Mul32 | src/main/java/jopenjpeg2/Jp2ExeImage.java:136-138 | `width * height` on `int`s is the exact product when it fits and agrees with it modulo 2^32 otherwise |
| JavaInt.Narrow | src/main/c/jopenjpeg2.c:118 | the `(short)` cast keeps a value in the short range and agrees with it modulo 2^16 |
| JavaInt.ShrStep | src/main/java/org/esa/beam/dataio/sentinel2/Sentinel2ProductReader2.java:156-158 | one more level halves a nonnegative tile side again |
| Text.FormatInt | src/main/java/jopenjpeg2/Jp2ExeImage.java:67 | `%d` writes digits with a leading `-` exactly for negative numbers |
| Text.ParseInt | src/main/java/jopenjpeg2/Jp2ExeImage.java:123-129 | `Integer.parseInt` accepts only an optional sign followed by digits, and a negative result needs a `-` |
| Text.FormatIntRoundTrip | src/main/java/jopenjpeg2/Jp2ExeImage.java:124-126 | every `int` written by `%d` parses back to itself |
| Text.FormatIntInjective | src/main/java/jopenjpeg2/Jp2ExeImage.java:67 | distinct numbers are written as distinct texts |
| Text.PiecesJoin | src/main/java/jopenjpeg2/Jp2ExeImage.java:113 | splitting on every single space gives space-free pieces that join back to the line |
| Text.SplitJoin | src/main/java/jopenjpeg2/Jp2ExeImage.java:113-116 | `split(" ")` of tokens joined by single spaces gives the tokens back, as long as the last one is not empty |
| Text.Split | src/main/java/jopenjpeg2/Jp2ExeImage.java:113 | no contract of its own: `split(" ")` is described by `Text.PiecesJoin` and `Text.SplitJoin` |
| Text.ReadLine | src/main/java/jopenjpeg2/Jp2ExeImage.java:112 | `readLine` gives null only on an empty stream, the line holds no line end, and the stream advances |
| Text.ReadLineRoundTrip | src/main/java/jopenjpeg2/Jp2ExeImage.java:112 | a Latin-1 line followed by `\n` is read back exactly, and the stream is left at the following bytes |
| Layout.ExeLayoutValid | src/main/java/jopenjpeg2/Jp2ExeImage.java:213-226 | the fixed layout is valid: its tile sides at levels 0 to 5 are 4096, 2048, 1024, 512, 256, 128 |
| Layout.TileIndexInverse | src/main/java/org/esa/beam/dataio/sentinel2/Sentinel2ProductReader2.java:280 | the row-major index of a tile in the grid lies in `[0, numXTiles * numYTiles)`, and division and remainder by `numXTiles` recover the tile |
| Layout.TileIndex | src/main/java/org/esa/beam/dataio/sentinel2/Sentinel2ProductReader2.java:280 | no contract of its own: the row-major index `numXTiles * tileY + tileX` in `int` arithmetic, described by `Layout.TileIndexInverse` and `Layout.TileIndexInjective` |
| Layout.TileIndexInjective | src/main/java/org/esa/beam/dataio/sentinel2/Sentinel2ProductReader2.java:280 | distinct tiles of the grid get distinct decoder indices |
| Layout.ExeTileIndexOnSquareGrid | src/main/java/jopenjpeg2/Jp2ExeImage.java:174 | on a square grid the `numYTiles`-based index equals the row-major one |
| Layout.ExeTileIndexAsWritten | src/main/java/jopenjpeg2/Jp2ExeImage.java:174 | no contract of its own: the index `numYTiles * tileY + tileX`, described by `Layout.ExeTileIndexOnSquareGrid` and `Layout.ExeTileIndexCollides` |
| Layout.ExeTileIndexCollides | src/main/java/jopenjpeg2/Jp2ExeImage.java:174 | on a 3 x 2 grid the `numYTiles`-based index maps tiles (0, 1) and (2, 0) to the same decoder index |
| Layout.TileDim | src/main/java/org/esa/beam/dataio/sentinel2/Sentinel2ProductReader2.java:160-166 | the rendered tile side is at most 512 and at most the JPEG 2000 tile side, and it is one of the two |
| Layout.S2LevelDims | src/main/java/org/esa/beam/dataio/sentinel2/Sentinel2ProductReader2.java:69-78 | for the reader's 4096 x 4096 tiles the JPEG 2000 tile sides are 4096 down to 128; rendered tiles are 512 at levels 0 to 2 and the whole JPEG 2000 tile at levels 3 to 5 |
| Layout.Jp2TileOf | src/main/java/org/esa/beam/dataio/sentinel2/Sentinel2ProductReader2.java:238-239 | for a nonnegative pixel coordinate the JPEG 2000 tile coordinate `c` satisfies `c * side <= x < (c + 1) * side` |
| Raster.IndexInverse | src/main/c/jopenjpeg2.c:115-123 | the row-major position `y * w + x` gives back column `x` and row `y` |
| Raster.PlaceCells | src/main/java/jopenjpeg2/Jp2ExeImage.java:141-149 | each destination cell holds the source cell at the same column and row when both lie inside the source, and zero otherwise; every source index read is in bounds |
| Raster.Place | src/main/java/jopenjpeg2/Jp2ExeImage.java:141-149 | the placement has exactly `dw * dh` cells; its cells are stated by `Raster.PlaceCells` |
| Raster.PlaceSameShape | src/main/java/jopenjpeg2/Jp2ExeImage.java:136-137 | placing a `w x h` source into a `w x h` destination is the plain copy of its first `w * h` samples |
| Raster.PlaceEmptySource | src/main/java/jopenjpeg2/Jp2ExeImage.java:141-149 | a source with a side of zero or less gives an all-zero destination |
| Raster.PlaceLoop | src/main/java/jopenjpeg2/Jp2ExeImage.java:141-149 | the nested `y`/`x` loop writes exactly the placement: every cell is its source cell or zero |
| Pgx.ParseHeader | src/main/java/jopenjpeg2/Jp2ExeImage.java:112-129 | a header line is accepted exactly when it splits into six tokens and tokens 3 to 5 are `int`s; tokens 0 to 2 are never checked |
| Pgx.HeaderRoundTrip | src/main/java/jopenjpeg2/Jp2ExeImage.java:113-129 | a written header line `PG ML + depth width height` parses back to its fields |
| Pgx.SamplesRoundTrip | src/main/java/jopenjpeg2/Jp2ExeImage.java:137 | big-endian sample bytes read back as the samples that were written |
| Pgx.ReadTileData | src/main/java/jopenjpeg2/Jp2ExeImage.java:99-156 | the exceptions and their order: a buffer of the wrong length fails before the artifact is read; then come an empty artifact, an unparsable header and a declared size above the limit; a filled buffer keeps its length |
| Pgx.ParseTile | src/main/java/jopenjpeg2/Jp2ExeImage.java:99-156 | the parser with the declared size checked against the tile: a buffer of the wrong length fails first, a declared side above the tile's is rejected as oversized, and a filled buffer keeps its length |
| Pgx.ParseTileCheckingCoords | src/main/java/org/esa/beam/dataio/sentinel2/Sentinel2ProductReader2.java:327-384 | the Sentinel-2 parser as written: a buffer of the wrong length fails first, a declared width above `jp2TileX` or height above `jp2TileY` is rejected as oversized, and a filled buffer keeps its length |
| Pgx.DeclaredIsPlacement | src/main/java/jopenjpeg2/Jp2ExeImage.java:131-152 | for a declared size between zero and the tile size, both copy branches follow the top-left placement rule and the all-zero fallback is never taken; the product equals the tile area only for the tile's own shape |
| Pgx.ParsedTileIsPlacement | src/main/java/jopenjpeg2/Jp2ExeImage.java:99-156 | a well-formed artifact with a declared size within the tile fills the buffer with its samples placed top-left, zero elsewhere |
| Pgx.PgxRoundTrip | src/main/java/jopenjpeg2/Jp2ExeImage.java:99-156 | a written PGX artifact parses back to its samples placed top-left in the tile, whatever follows them |
| Pgx.PgxFullTile | src/main/java/jopenjpeg2/Jp2ExeImage.java:136-137 | an artifact that declares exactly the tile size is copied as is |
| Pgx.TruncatedPayloadRaises | src/main/java/jopenjpeg2/Jp2ExeImage.java:137-140 | an artifact with fewer samples than it declares fails with an end-of-file error |
| Pgx.NegativeDeclarationZeroFills | src/main/java/jopenjpeg2/Jp2ExeImage.java:131-152 | negative declared sizes are not rejected: on the 128 x 128 tile of level 5, `-200 x -200` passes the limit check, its product 40000 exceeds the buffer, and the parser takes the all-zero fallback |
| Pgx.SmallNegativeDeclarationPads | src/main/java/jopenjpeg2/Jp2ExeImage.java:136-149 | on the same tile `-3 x -3` declares 9 samples, fewer than the buffer, so it takes the padding branch: with no samples after the header the read fails with an end-of-file error, and with 9 samples every cell is zero |
| Pgx.NegativeProductRaises | src/main/java/jopenjpeg2/Jp2ExeImage.java:138-139 | a declared `1 x -1` reaches the array allocation with a negative size and fails |
| Pgx.EdgeTileExample | src/main/java/jopenjpeg2/Jp2ExeImage.java:141-149 | a 3 x 2 payload in a 4 x 4 tile fills columns 0 to 2 of rows 0 and 1 and zeroes the rest |
| Artifacts.LastDot | src/main/java/jopenjpeg2/Jp2ExeImage.java:170 | the extension starts at the last `.` of the name, if any |
| Artifacts.ArtifactNameShape | src/main/java/jopenjpeg2/Jp2ExeImage.java:67-68 | the output name is `<stem>_R<r>_TX<x>_TY<y>.pgx` and the component-0 artifact is `<stem>_R<r>_TX<x>_TY<y>_0.pgx` |
| Artifacts.ArtifactName | src/main/java/jopenjpeg2/Jp2ExeImage.java:67-68 | no contract of its own: the component-0 artifact name, described by `Artifacts.ArtifactNameShape` and `Artifacts.ArtifactNameInjective` |
| Artifacts.KeyTextInjective | src/main/java/jopenjpeg2/Jp2ExeImage.java:67 | the key text `_R<r>_TX<x>_TY<y>` determines level and tile |
| Artifacts.ArtifactNameInjective | src/main/java/org/esa/beam/dataio/sentinel2/Sentinel2ProductReader2.java:248-252 | two artifacts of one source share a name only if they are for the same level and tile |
| Artifacts.ArtifactNameExample | src/main/java/org/esa/beam/dataio/sentinel2/Sentinel2ProductReader2.java:248-252 | level 2, tile (1, 0) of `<stem>.jp2` is cached as `<stem>_R2_TX1_TY0_0.pgx` |
| ExeImage.OpenFile | src/main/java/jopenjpeg2/Jp2ExeImage.java:30-49 | `open` succeeds exactly when the file exists, has a parent directory and the cache directory is usable; otherwise it fails with the first check that failed; an opened image has the fixed layout and empty bookkeeping |
| ExeImage.Open | src/main/java/jopenjpeg2/Jp2ExeImage.java:48 | an opened image has the fixed valid layout, a tile size the parser accepts at its level, and no run in progress or generated |
| ExeImage.Observed | src/main/java/jopenjpeg2/Jp2ExeImage.java:189-200 | the completion callback always removes the run from the in-progress set and adds the component-0 artifact to the generated set exactly when the exit code is 0 and the artifact exists; nothing else changes |
| ExeImage.ExistsPgx | src/main/java/jopenjpeg2/Jp2ExeImage.java:158-167 | the nine-iteration loop finds the component-0 artifact exactly when it exists, so it is one existence check |
| ExeImage.ReadTile | src/main/java/jopenjpeg2/Jp2ExeImage.java:65-79 | on a hit no decoder runs and the artifact is parsed; on a miss the decoder runs with the index computed from `numYTiles`, as at line 174; an artifact still missing afterwards zero-fills; only the requested artifact can appear and no file changes |
| ExeImage.DecoderCall | src/main/java/jopenjpeg2/Jp2ExeImage.java:173-179 | no contract of its own: the decoder's input, output, level and line-174 index, described by `ExeImage.FixedLayoutIndexIsRowMajor` and `ExeImage.NonSquareLayoutDecodesWrongTile` |
| ExeImage.Dispose | src/main/java/jopenjpeg2/Jp2ExeImage.java:81-91 | disposing clears the generated set and changes nothing else |
| ExeImage.SecondReadHits | src/main/java/jopenjpeg2/Jp2ExeImage.java:65-79 | a second request for a tile whose artifact the first request left never decodes and returns what the first returned |
| ExeImage.ZeroFillRetries | src/main/java/jopenjpeg2/Jp2ExeImage.java:69-78 | a zero-filled request leaves the cache as it was, so the next request decodes again |
| ExeImage.OtherTilesUntouched | src/main/java/jopenjpeg2/Jp2ExeImage.java:65-79 | a request leaves every other tile's artifact as it was |
| ExeImage.DisposeKeepsArtifacts | src/main/java/jopenjpeg2/Jp2ExeImage.java:81-91 | disposing is idempotent and deletes nothing: a later request still reads the cached artifact without decoding |
| ExeImage.FixedLayoutIndexIsRowMajor | src/main/java/jopenjpeg2/Jp2ExeImage.java:173-179 | for the fixed 3 x 3 layout, the only one an opened image has, the `numYTiles`-based index the decoder is handed is the row-major index |
| ExeImage.NonSquareLayoutDecodesWrongTile | src/main/java/jopenjpeg2/Jp2ExeImage.java:174 | on an image whose layout has 3 x 2 tiles, the decoder is handed index 2 both for tile (0, 1) and for tile (2, 0), although the row-major index of (0, 1) is 3 |
| ExeImage.FixedLayoutIndexInGrid | src/main/java/jopenjpeg2/Jp2ExeImage.java:174 | every tile of the fixed layout gets a decoder index in `[0, 9)` |
| ExeImage.DecodeOnMissExample | src/main/java/jopenjpeg2/Jp2ExeImage.java:65-79 | a miss at level 3 whose decoder writes a full 512 x 512 artifact delivers its samples, records it as generated, and runs the decoder on index 7 for tile (1, 2) |
| OpImage.Jp2Tile | src/main/java/org/esa/beam/dataio/sentinel2/Sentinel2ProductReader2.java:236-239 | a request falls in the JPEG 2000 tile whose span contains its origin, inside the 3 x 3 grid |
| OpImage.Fetched | src/main/java/org/esa/beam/dataio/sentinel2/Sentinel2ProductReader2.java:255-260 | a decoder that cannot be started deletes the artifact name; no other file changes |
| OpImage.Load | src/main/java/org/esa/beam/dataio/sentinel2/Sentinel2ProductReader2.java:267-272 | the delivered tile keeps the buffer's length, and an escaping exception is never an IOException, and the buffer is modelled as unchanged by a failed parse |
| OpImage.ComputeRectWith | src/main/java/org/esa/beam/dataio/sentinel2/Sentinel2ProductReader2.java:229-273 | a hit never decodes; a miss decodes the request's JPEG 2000 tile with the row-major index; an artifact missing afterwards zero-fills without an exception; an artifact present afterwards is parsed into the buffer with the limit check chosen, checked exceptions are dropped, and the buffer is modelled as unchanged by them; only the request's artifact can change |
| OpImage.ComputeRect | src/main/java/org/esa/beam/dataio/sentinel2/Sentinel2ProductReader2.java:229-273 | no contract of its own beyond `OpImage.ComputeRectWith`: `computeRect` with the size checked against the tile, described by `OpImage.ComputeRectFillsTile` |
| OpImage.ComputeRectAsWritten | src/main/java/org/esa/beam/dataio/sentinel2/Sentinel2ProductReader2.java:229-273 | no contract of its own beyond `OpImage.ComputeRectWith`: `computeRect` as written, described by `OpImage.OriginTileRejectedAsWritten` |
| OpImage.Jp2DecoderCall | src/main/java/org/esa/beam/dataio/sentinel2/Sentinel2ProductReader2.java:279-284 | no contract of its own: the decoder's input, output, level and row-major index, described by `OpImage.RequestIndexInGrid` |
| OpImage.SharedArtifactIffSameJp2Tile | src/main/java/org/esa/beam/dataio/sentinel2/Sentinel2ProductReader2.java:236-252 | two requests at a level share an artifact exactly when they fall in the same JPEG 2000 tile |
| OpImage.RequestIndexInGrid | src/main/java/org/esa/beam/dataio/sentinel2/Sentinel2ProductReader2.java:279-280 | a request's decoder index is in `[0, 9)` and equals `Jp2ExeImage`'s `numYTiles`-based index on the 3 x 3 grid |
| OpImage.OriginTileRejectedAsWritten | src/main/java/org/esa/beam/dataio/sentinel2/Sentinel2ProductReader2.java:362-365 | as written, at every level a cached artifact of JPEG 2000 tile (0, 0) declaring a positive width or height is rejected as oversized, the exception escapes and the buffer is left as it was |
| OpImage.ComputeRectFillsTile | src/main/java/org/esa/beam/dataio/sentinel2/Sentinel2ProductReader2.java:362-380 | checked against the tile size, a cached artifact declaring a size within the rendered tile and followed by enough samples fills the buffer with them placed top-left, zeros elsewhere, at every tile of every level, without an exception |
| OpImage.OriginTileExample | src/main/java/org/esa/beam/dataio/sentinel2/Sentinel2ProductReader2.java:362-365 | a complete 512 x 512 artifact of tile (0, 0) at level 3 is rejected as written and copied as is when checked against the tile size |
| OpImage.CoarseLevelArtifactRejected | src/main/java/org/esa/beam/dataio/sentinel2/Sentinel2ProductReader2.java:367-383 | at level 0 a complete artifact declares 4096 x 4096 against a 512 x 512 rendered tile, so even the corrected check rejects it |
| OpImage.NotStartedZeroFills | src/main/java/org/esa/beam/dataio/sentinel2/Sentinel2ProductReader2.java:253-264 | a decoder that cannot be started gives a zero tile and no exception |
| Native.AsInt | src/main/c/jopenjpeg2.c:143 | an unsigned value stored into an `int` is itself up to `MAX_INT` and otherwise wraps by 2^32 |
| Native.BytesPerSample | src/main/c/jopenjpeg2.c:103-109 | a sample takes 1 byte up to 8 bits of precision, 2 up to 16 and 4 beyond |
| Native.CopyData | src/main/c/jopenjpeg2.c:90-125 | the copy writes exactly `dw * dh` cells; which cells hold samples is stated by `Native.CopyDataCells`, `Native.CopyDataCrops` and `Native.CopyDataWideComponentZeroFills` |
| Native.CopyDataCells | src/main/c/jopenjpeg2.c:100-123 | every one of the `dw * dh` destination cells is the narrowed source cell at the same column and row when the column and row are below the `int` copies `cw` and `ch` of the component's sides, and 0 otherwise; every source index read is within the component's `w * h` samples |
| Native.CopyDataCrops | src/main/c/jopenjpeg2.c:100-123 | a component whose `int` sides are at least the destination's is cropped to its top-left `dw x dh` corner, not rejected and not padded |
| Native.CopyDataWideComponentZeroFills | src/main/c/jopenjpeg2.c:100-123 | a component side of 2^31 or more is negative once stored into `cw` or `ch`, so every destination cell is zero-filled |
| Native.ReducedSide | src/main/c/jopenjpeg2.c:194-195 | `tdx >> factor` is the floor of the side divided by 2^factor |
| Native.ReadImgTileData | src/main/c/jopenjpeg2.c:172-206 | the tile read with a null check on `cstr_info`: it never reads through a null pointer; an index outside `[0, numcomps)` or a missing `cstr_info` returns 0 before any decode; otherwise 1 exactly when the tile decodes, and the data is the component copied into `(tdx >> factor) x (tdy >> factor)` cells |
| Native.ReadImgTileDataAsWritten | src/main/c/jopenjpeg2.c:172-206 | as written, the read goes through a null `cstr_info` exactly when the index is valid, the tile decodes and the handle has no codestream information; with codestream information it is the checked read |
| Native.TileReadWithoutCstr | src/main/c/jopenjpeg2.c:85 | a handle whose `opj_get_cstr_info` failed is still live and holds no codestream information; a tile read on it that decodes reads through the null pointer as written, and returns 0 with the check |
| Native.TileReadAtLevel | src/main/c/jopenjpeg2.c:194-197 | on 4096-wide tiles a tile decoded at factor `level` has exactly the size `Jp2Image` expects at that level |
| Native.MaxFromZero | src/main/c/jopenjpeg2.c:261-266 | the running maximum starting from the zero of `calloc` is nonnegative, bounds every count, and is 0 or one of the counts |
| Native.MaxResolutions | src/main/c/jopenjpeg2.c:261-266 | the loop over the components computes that maximum |
| Native.GetImgInfo | src/main/c/jopenjpeg2.c:237-284 | the info record is null exactly when its allocation fails |
| Native.InfoExtents | src/main/c/jopenjpeg2.c:247-248 | width and height are `x1 - x0` and `y1 - y0` when these fit an `int`, and agree with them modulo 2^32 always |
| Native.InfoTileCount | src/main/c/jopenjpeg2.c:252-254 | the tile count is `tw * th` and the product of the reported counts along the axes |
| Native.InfoResolutionsMax | src/main/c/jopenjpeg2.c:251-267 | `num_resolutions_max` is the largest resolution count of the components, and 0 without codestream information |
| Native.InfoNullSourcesZero | src/main/c/jopenjpeg2.c:242-281 | fields whose source pointer is null keep the zero from `calloc` |
| Native.LibLayout | src/main/java/jopenjpeg2/Jp2LibImage.java:68-84 | `_getLayout` fails exactly when the info record is null |
| Native.LibLayoutOfTestImage | src/test/java/jopenjpeg2/jna/Jopenjpeg2LibTest.java:79-94 | the 10960 x 10960 test image with 3 x 3 tiles of 4096 and six resolutions yields exactly the layout `Jp2ExeImage` assumes |
| Native.Releases | src/main/c/jopenjpeg2.c:214-233 | a handle is released exactly when it is held, each at most once, and the struct is not freed here |
| Native.DisposeImg | src/main/c/jopenjpeg2.c:209-235 | null is a no-op; otherwise each held handle is released exactly once, the stream before the file, and the struct is freed last |
| Native.OpenImg | src/main/c/jopenjpeg2.c:30-88 | an open never returns a freed struct; it returns a live handle exactly when every step up to the resolution factor succeeded, holding exactly what those steps acquired; a failed open releases exactly what it acquired |
| Native.OpenImgAsWritten | src/main/c/jopenjpeg2.c:30-88 | as written, the open agrees with the corrected one whenever the resolution factor is accepted |
| Native.OpenImgReleasesAcquired | src/main/c/jopenjpeg2.c:30-88 | on each failure path the handles released are exactly those acquired before it |
| Native.ReadImgRegionData | src/main/c/jopenjpeg2.c:128-169 | nothing stays allocated; an invalid index returns 0 before any area is set; the area has inclusive corners spanning `w` columns and `h` rows from `(x0, y0)`; 1 is returned exactly when open, area and decode succeed, with the component copied into `w x h` cells |
| Native.ReadImgRegionDataAsWritten | src/main/c/jopenjpeg2.c:128-169 | as written, the region read agrees with the corrected one whenever the component index is valid |
| FileNameInfo.Create | src/main/java/org/esa/beam/dataio/sentinel2/S2FileNameInfo.java:62-76 | a created record keeps the file name and has fields of the shapes the pattern demands |
| FileNameInfo.CreateDecomposes | src/main/java/org/esa/beam/dataio/sentinel2/S2FileNameInfo.java:13 | every accepted name is its six captured fields put back into the pattern |
| FileNameInfo.CreateComposed | src/main/java/org/esa/beam/dataio/sentinel2/S2FileNameInfo.java:13 | every name built from well-formed fields, with any separator other than a line terminator before `jp2`, is accepted with exactly those fields |
| FileNameInfo.GetBand | src/main/java/org/esa/beam/dataio/sentinel2/S2FileNameInfo.java:40-46 | the band of a created record is the value of its two digits, in `[0, 99]`, never -1 |
| FileNameInfo.GetBandOfSameProduct | src/main/java/org/esa/beam/dataio/sentinel2/S2FileNameInfo.java:49-60 | the instance pattern matches a name exactly when it is a valid name of the same product (type, orbit, start, stop, UTM tile); then the band of that name is returned, and -1 otherwise |
| FileNameInfo.GetBandOf | src/main/java/org/esa/beam/dataio/sentinel2/S2FileNameInfo.java:49-60 | no contract of its own: `getBand(String)`, described by `FileNameInfo.GetBandOfSameProduct` |
| FileNameInfo.SelfBand | src/main/java/org/esa/beam/dataio/sentinel2/S2FileNameInfo.java:36-37 | the instance pattern matches the record's own name and gives its own band |
| FileNameInfo.BandOfSameProduct | src/main/java/org/esa/beam/dataio/sentinel2/S2FileNameInfo.java:49-60 | another band of the same product is looked up as its two-digit value |
| FileNameInfo.OtherTileBand | src/main/java/org/esa/beam/dataio/sentinel2/S2FileNameInfo.java:49-60 | a band of another UTM tile gives -1 |
| FileNameInfo.ValidFileNameExample | src/test/java/org/esa/beam/dataio/sentinel2/S2FileNameInfoTest.java:17-27 | the test name is created with type L1C, orbit 054, the two times, band 01 and UTM tile 15TVE, and its band is 1 |
| FileNameInfo.SameProductBandExample | src/test/java/org/esa/beam/dataio/sentinel2/S2FileNameInfoTest.java:28-29 | bands 05 and 11 of the test product are looked up as 5 and 11 |
| FileNameInfo.OtherTileBandExample | src/test/java/org/esa/beam/dataio/sentinel2/S2FileNameInfoTest.java:30 | band 11 of tile 15SUD is not part of the test product |
| FileNameInfo.InvalidFileNameExample | src/test/java/org/esa/beam/dataio/sentinel2/S2FileNameInfoTest.java:35-36 | metadata and thumbnail names are not band file names |

## Left out

- Process spawning and supervision are left out: `ProcessBuilder`, the `ProcessObserver` polling and `waitFor`. A decoder run is a parameter saying whether it started, its exit code and the artifact it left. The `onObservationStarted` insertion into the in-progress set is not modelled separately, because the blocking observer removes it again before `decompressTile` returns.
- File-system effects other than the artifact's existence and contents are left out. The three checks of `open` (file exists, has a parent, cache directory usable) are parameters; the cache directory's location and name are not modelled.
- `FileUtils.exchangeExtension` is not part of this model. It is assumed to replace the text from the last `.` with the suffix, and to append the suffix to a name without a `.`.
- Text.FormatInt: `String.format` writes `%d` with the default locale's digits. A locale with ASCII digits is assumed, so the artifact names are as modelled; injectivity and the hit and miss logic would hold under any locale.
- `Sentinel2ProductReader2`'s `openFiles` stream pool is not modelled. Every parse reads its artifact from the start.
- `synchronized`, `finalize` and concurrent requests are not modelled.
- Logging and printing are not modelled.
- The product assembly of `Sentinel2ProductReader2` is left out: `readProductNodesImpl`, band discovery, directory listing, and the waveband table of doubles.
- `Sentinel2ProductReader.java`, `Jp2LibImage.java` (apart from `_getLayout`) and `Jp2ImageFactory.java` are not part of this model. They are thin wrappers and dispatch.
- The OpenJPEG calls (`opj_*`) are opaque. Their outcomes are parameters: which steps succeed, the decoded component and the codestream information.
- `opj_read_header` failing is assumed to leave no image allocated.
- The `free` of the component data after a tile read is not modelled, because nothing later reads it.
- `opj_end_decompress` in the region read only prints a warning and is not modelled.
- Pgx.ReadTileData: requires a nonnegative tile size whose area is an `int`, and limits no larger than the tile. The real callers always satisfy this. It keeps `y * tileWidth + x` from overflowing.
- Pgx.ReadTileData: when the payload runs short, `readFully` may already have written a prefix of the buffer before its end-of-file error. The model reports the error and treats the buffer as unchanged.
- ExeImage.ReadTile: the component index is not an input, because the source ignores it and always reads the component-0 artifact.
- OpImage.ComputeRectWith: when an artifact that declares the full tile runs short, `readFully` at `Sentinel2ProductReader2.java:367-368` has already written the leading samples into the tile buffer before its end-of-file error, and the catch at line 270 drops that error. The source therefore delivers a partly overwritten tile with no exception; the model delivers the buffer unchanged.
- OpImage.ComputeRectWith: requires a level in `[0, 6)` and a request origin inside the 3 x 3 grid at that level. These are the requests the reader's multi-level source makes.
- Native.ReadImgRegionData: computes the corners `x0 + w - 1` and `y0 + h - 1` exactly. In C this signed addition can overflow, which is undefined behaviour.
- Native.CopyData: computes the positions `j * cw + i` and `j * dw + i` exactly. In C they are `int` products that overflow when a component or destination holds more than 2^31 - 1 samples.
- Native.ReducedSide: takes a shift count of 32 or more modulo 32. In C such a count is undefined behaviour.
- FileNameInfo.ValidFileNameExample: states the test's 64-character names through `Compose` of their fields rather than as literals. The doc comments spell out the literal names.

## Findings

| source | as written | input that shows it | evidently intended | confidence | as-written member | corrected member |
|---|---|---|---|---|---|---|
| src/main/java/org/esa/beam/dataio/sentinel2/Sentinel2ProductReader2.java:362-365 | the declared width and height are compared with the JPEG 2000 tile coordinates `jp2TileX`, `jp2TileY` | a complete 512 x 512 artifact of tile (0, 0) at level 3 raises IllegalStateException, which escapes `computeRect` | compare with the tile's width and height, as `Jp2ExeImage.java:131-134` does | high (not executed) | OpImage.OriginTileRejectedAsWritten | OpImage.ComputeRectFillsTile |
| src/main/java/jopenjpeg2/Jp2ExeImage.java:174 | the decoder tile index is `numYTiles * tileY + tileX` | on a layout with 3 x 2 tiles, tiles (0, 1) and (2, 0) both get index 2 | the row-major `numXTiles * tileY + tileX` of `Sentinel2ProductReader2.java:280`; the two agree on the fixed 3 x 3 layout | medium (not executed) | Layout.ExeTileIndexCollides | Layout.TileIndexInjective |
| src/main/c/jopenjpeg2.c:143-146 | an invalid component index returns 0 without disposing the image just opened | `comp_index == numcomps` after a successful open leaks the file, stream, codec, image and the struct | dispose the image before returning, as the later error paths at lines 148-158 do | high (not executed) | Native.RegionLeaksOnBadIndex | Native.ReadImgRegionData |
| src/main/c/jopenjpeg2.c:80-83 | when setting the resolution factor fails, the image is disposed but the function goes on | a factor that `opj_set_decoded_resolution_factor` rejects makes the function write into and return the freed struct | return NULL after disposing, as every earlier error path does | high (not executed) | Native.OpenFactorFailureDangles | Native.OpenImg |
| src/main/c/jopenjpeg2.c:194-195 | at line 85 `jopj_open_img` stores the result of `opj_get_cstr_info` without checking it, and the tile read dereferences `cstr_info` without a check | an open whose codestream-information call fails returns a live handle; a tile read on it that decodes reads `tdx` through a null pointer | check `cstr_info` before reading the tile size, as `jopj_get_img_info` does at line 251 | low (not executed) | Native.TileReadWithoutCstr | Native.ReadImgTileData |

=== FILE: artifacts.dfy ===
/** Names of the decoder's cache artifacts. The decoder is told to write
    `<stem>_R<r>_TX<x>_TY<y>.pgx`; it writes one file per component, and the readers
    look for component 0 under `<stem>_R<r>_TX<x>_TY<y>_0.pgx`, where `<stem>` is the
    source file name without its extension. Both names come from
    `FileUtils.exchangeExtension`, a library helper whose source is not part of this
    model: it is assumed to replace everything from the last `.` of the name by the
    new suffix, and to append the suffix to a name without a `.`. */
module Artifacts {
  import opened JavaInt
  import opened Text

  /** Index of the last `.` in `s`, or -1 when there is none. */
  function LastDot(s: string): (i: int)
    ensures -1 <= i < |s|
    ensures 0 <= i ==> s[i] == '.'
    ensures forall j | i < j < |s| :: s[j] != '.'
  {
    if |s| == 0 then -1
    else if s[|s| - 1] == '.' then |s| - 1
    else LastDot(s[..|s| - 1])
  }

  /** The name without its extension. */
  function Stem(s: string): string {
    var i := LastDot(s);
    if i < 0 then s else s[..i]
  }

  /** The assumed `FileUtils.exchangeExtension(name, suffix)`. */
  function ExchangeExtension(name: string, suffix: string): string {
    Stem(name) + suffix
  }

  predicate NoChar(s: string, c: char) {
    forall i | 0 <= i < |s| :: s[i] != c
  }

  /** The key part of the output name, `_R<r>_TX<x>_TY<y>`, as `%d` writes it. */
  function KeyText(r: int, x: int, y: int): string {
    "_R" + FormatInt(r) + "_TX" + FormatInt(x) + "_TY" + FormatInt(y)
  }

  /** The output name handed to the decoder (`-o`). */
  function OutputName(source: string, r: int, x: int, y: int): string {
    ExchangeExtension(source, KeyText(r, x, y) + ".pgx")
  }

  /** `getFirstComponentOutputFile(outputFile)`: the name of the component-0 artifact,
      whose existence is the cache-hit signal. */
  function ArtifactName(source: string, r: int, x: int, y: int): string {
    ExchangeExtension(OutputName(source, r, x, y), "_0.pgx")
  }

  lemma FormatIntPlain(n: int)
    ensures NoChar(FormatInt(n), '.') && NoChar(FormatInt(n), '_')
  {
  }

  /** Appending text without a `.` to a name ending in a `.` keeps that `.` last. */
  lemma {:induction false} LastDotAfter(a: string, b: string)
    requires NoChar(b, '.')
    ensures LastDot(a + "." + b) == |a|
    decreases |b|
  {
    var s := a + "." + b;
    if |b| > 0 {
      assert s[..|s| - 1] == a + "." + b[..|b| - 1];
      LastDotAfter(a, b[..|b| - 1]);
    } else {
      assert s[|s| - 1] == '.';
    }
  }

  /** The artifact name is the source stem followed by the key and `_0.pgx`: the
      two extension exchanges compose. */
  lemma ArtifactNameShape(source: string, r: int, x: int, y: int)
    ensures OutputName(source, r, x, y) == Stem(source) + KeyText(r, x, y) + ".pgx"
    ensures ArtifactName(source, r, x, y) == Stem(source) + KeyText(r, x, y) + "_0.pgx"
  {
    var k := KeyText(r, x, y);
    FormatIntPlain(r);
    FormatIntPlain(x);
    FormatIntPlain(y);
    assert NoChar("pgx", '.');
    var out := Stem(source) + k + ".pgx";
    assert out == (Stem(source) + k) + "." + "pgx";
    LastDotAfter(Stem(source) + k, "pgx");
    assert Stem(out) == Stem(source) + k;
  }

  /** Cutting at the first occurrence of a separator the heads do not contain. */
  lemma SplitAtFirst(a1: string, t1: string, a2: string, t2: string, c: char)
    requires NoChar(a1, c) && NoChar(a2, c)
    requires a1 + [c] + t1 == a2 + [c] + t2
    ensures a1 == a2 && t1 == t2
  {
    var s := a1 + [c] + t1;
    assert s[|a1|] == c;
    assert (a2 + [c] + t2)[|a2|] == c;
    assert |a1| == |a2|;
    assert a1 == s[..|a1|] == a2;
    assert t1 == s[|a1| + 1..] == t2;
  }

  lemma PrefixCut(p: string, a: string, b: string)
    requires p + a == p + b
    ensures a == b
  {
    assert a == (p + a)[|p|..];
    assert b == (p + b)[|p|..];
  }

  lemma TailCut(a: string, b: string, tail: string)
    requires a + tail == b + tail
    ensures a == b
  {
    assert a == (a + tail)[..|a|];
    assert b == (b + tail)[..|b|];
  }

  lemma StemCut(p: string, k1: string, k2: string, tail: string)
    requires p + k1 + tail == p + k2 + tail
    ensures k1 + tail == k2 + tail
  {
    assert p + k1 + tail == p + (k1 + tail);
    assert p + k2 + tail == p + (k2 + tail);
    PrefixCut(p, k1 + tail, k2 + tail);
  }

  /** The key text followed by `tail`, bracketed field by field. */
  lemma KeyTextFields(r: int, x: int, y: int, tail: string)
    ensures KeyText(r, x, y) + tail ==
      "_R" + (FormatInt(r) + "_" + ("TX" + (FormatInt(x) + "_" + ("TY" + (FormatInt(y) + tail)))))
  {
  }

  /** Distinct keys give distinct key texts, whatever follows them. */
  lemma KeyTextInjective(r1: int, x1: int, y1: int, r2: int, x2: int, y2: int, tail: string)
    requires KeyText(r1, x1, y1) + tail == KeyText(r2, x2, y2) + tail
    ensures r1 == r2 && x1 == x2 && y1 == y2
  {
    FormatIntPlain(r1);
    FormatIntPlain(r2);
    FormatIntPlain(x1);
    FormatIntPlain(x2);
    KeyTextFields(r1, x1, y1, tail);
    KeyTextFields(r2, x2, y2, tail);
    var c1 := "TY" + (FormatInt(y1) + tail);
    var c2 := "TY" + (FormatInt(y2) + tail);
    var b1 := "TX" + (FormatInt(x1) + "_" + c1);
    var b2 := "TX" + (FormatInt(x2) + "_" + c2);
    PrefixCut("_R", FormatInt(r1) + "_" + b1, FormatInt(r2) + "_" + b2);
    SplitAtFirst(FormatInt(r1), b1, FormatInt(r2), b2, '_');
    PrefixCut("TX", FormatInt(x1) + "_" + c1, FormatInt(x2) + "_" + c2);
    SplitAtFirst(FormatInt(x1), c1, FormatInt(x2), c2, '_');
    PrefixCut("TY", FormatInt(y1) + tail, FormatInt(y2) + tail);
    TailCut(FormatInt(y1), FormatInt(y2), tail);
    FormatIntInjective(r1, r2);
    FormatIntInjective(x1, x2);
    FormatIntInjective(y1, y2);
  }

  /** The cache key is injective: two artifacts of the same source share a name only
      if they are for the same level and tile. */
  lemma ArtifactNameInjective(source: string, r1: int, x1: int, y1: int, r2: int, x2: int, y2: int)
    requires ArtifactName(source, r1, x1, y1) == ArtifactName(source, r2, x2, y2)
    ensures r1 == r2 && x1 == x2 && y1 == y2
  {
    ArtifactNameShape(source, r1, x1, y1);
    ArtifactNameShape(source, r2, x2, y2);
    StemCut(Stem(source), KeyText(r1, x1, y1), KeyText(r2, x2, y2), "_0.pgx");
    KeyTextInjective(r1, x1, y1, r2, x2, y2, "_0.pgx");
  }

  /** A `.jp2` file at level 2, tile (1, 0): for the test data
      `IMG_GPPL1C_054_20091210235100_20091210235130_01_000000_15SVD.jp2` the artifact
      is `IMG_GPPL1C_054_20091210235100_20091210235130_01_000000_15SVD_R2_TX1_TY0_0.pgx`. */
  lemma ArtifactNameExample(stem: string)
    ensures ArtifactName(stem + ".jp2", 2, 1, 0) == stem + "_R2_TX1_TY0_0.pgx"
  {
    StemOfJp2(stem);
    KeyTextExample();
    ArtifactNameShape(stem + ".jp2", 2, 1, 0);
    assert stem + "_R2_TX1_TY0" + "_0.pgx" == stem + "_R2_TX1_TY0_0.pgx";
  }

  /** Whatever precedes it, a `.jp2` extension is what `exchangeExtension` replaces. */
  lemma StemOfJp2(stem: string)
    ensures Stem(stem + ".jp2") == stem
  {
    assert NoChar("jp2", '.');
    assert stem + ".jp2" == stem + "." + "jp2";
    LastDotAfter(stem, "jp2");
  }

  lemma KeyTextExample()
    ensures KeyText(2, 1, 0) == "_R2_TX1_TY0"
  {
    assert FormatInt(2) == "2" && FormatInt(1) == "1" && FormatInt(0) == "0";
  }
}

=== FILE: exe_image.dfy ===
/** `Jp2ExeImage`, the back end that runs an external decoder: a tile request is
    answered from the component-0 artifact in the cache directory, decoding the tile
    first when that artifact is missing. The cache directory is a map from file names
    to contents; the decoder run is a parameter saying how it ended and what it wrote. */
module ExeImage {
  import opened Options
  import opened JavaInt
  import opened Layout
  import opened Pgx
  import opened Artifacts

  /** The package cache directory: file contents by name. */
  type Files = map<string, seq<byte>>

  /** How a decoder run went, as far as the image can observe it. */
  datatype Launch =
    | NotStarted                                           // starting the process threw
    | Exited(exitCode: int32, written: Option<seq<byte>>)  // the component-0 artifact it left, if any

  /** The decoder's command line: `-i`, `-o`, `-r`, `-t`. */
  datatype Invocation = Invocation(input: string, output: string, resolution: int32, tileIndex: int32)

  /** An open image: the source file (name and path), its layout, the level it
      serves, and the two bookkeeping sets of the process callback. */
  datatype Image = Image(
    source: string,
    sourcePath: string,
    layout: Layout,
    resolution: int32,
    inProgress: set<string>,
    generated: set<string>)

  /** `open(file, resolution)` once the file and the cache directory checked out:
      the layout is always the fixed one and nothing is in progress or generated. */
  function Open(source: string, sourcePath: string, resolution: int32): (img: Image)
    ensures ValidLayout(img.layout) && Sized(img)
    ensures img.inProgress == {} && img.generated == {}
  {
    ExeLayoutValid();
    ExeLayoutSized(resolution);
    Image(source, sourcePath, ExeLayout, resolution, {}, {})
  }

  /** Why `open` fails: the file does not exist, it has no parent directory to name
      the package by, or the package cache directory cannot be made or written. */
  datatype OpenFailure = FileNotFound | NoPackageDirectory | CacheNotAccessible

  datatype OpenResult = OpenedImage(image: Image) | OpenFailed(failure: OpenFailure)

  /** `open(file, resolution)` with the outcomes of its three file-system checks as
      parameters, made in the source's order. */
  function OpenFile(found: bool, hasParent: bool, cacheUsable: bool,
                    source: string, sourcePath: string, resolution: int32): (r: OpenResult)
    ensures r.OpenedImage? <==> found && hasParent && cacheUsable
    ensures !found ==> r == OpenFailed(FileNotFound)
    ensures found && !hasParent ==> r == OpenFailed(NoPackageDirectory)
    ensures found && hasParent && !cacheUsable ==> r == OpenFailed(CacheNotAccessible)
    ensures r.OpenedImage? ==>
      && r.image.layout == ExeLayout && Sized(r.image)
      && r.image.inProgress == {} && r.image.generated == {}
  {
    if !found then OpenFailed(FileNotFound)
    else if !hasParent then OpenFailed(NoPackageDirectory)
    else if !cacheUsable then OpenFailed(CacheNotAccessible)
    else OpenedImage(Open(source, sourcePath, resolution))
  }

  function TileWidth(img: Image): int32 {
    LevelTileWidth(img.layout, img.resolution)
  }

  function TileHeight(img: Image): int32 {
    LevelTileHeight(img.layout, img.resolution)
  }

  /** The level's tile size is one the parser can be handed. */
  predicate Sized(img: Image) {
    TileSized(TileWidth(img), TileHeight(img))
  }

  /** At every level the fixed layout's tile is at most 4096 x 4096. */
  lemma ExeLayoutSized(r: int)
    ensures TileSized(LevelTileWidth(ExeLayout, r), LevelTileHeight(ExeLayout, r))
  {
    var s := LevelTileWidth(ExeLayout, r);
    assert 0 <= s <= 4096;
    MulMono(s, 4096, s);
    MulMono(s, 4096, 4096);
  }

  /** The private `readTileData(File, short[])` on the image's level. */
  function Parse(img: Image, file: seq<byte>, buf: seq<short>): Outcome
    requires Sized(img)
  {
    ParseTile(file, TileWidth(img), TileHeight(img), buf)
  }

  function Artifact(img: Image, tileX: int32, tileY: int32): string {
    ArtifactName(img.source, img.resolution, tileX, tileY)
  }

  function Output(img: Image, tileX: int32, tileY: int32): string {
    OutputName(img.source, img.resolution, tileX, tileY)
  }

  /** What `decompressTile` runs, with the tile index as the source computes it,
      from `numYTiles`. */
  function DecoderCall(img: Image, tileX: int32, tileY: int32): Invocation {
    Invocation(img.sourcePath, Output(img, tileX, tileY), img.resolution, ExeTileIndexAsWritten(img.layout, tileX, tileY))
  }

  /** The completion callback of a decoder run on `output`: the run is no longer in
      progress, and its component-0 artifact counts as generated when the run exited
      with 0 and the artifact is there. */
  function Observed(img: Image, output: string, exitCode: int32, files: Files): (img': Image)
    ensures img'.inProgress == img.inProgress - {output}
    ensures img'.generated <= img.generated + {ExchangeExtension(output, "_0.pgx")}
    ensures img.generated <= img'.generated
    ensures ExchangeExtension(output, "_0.pgx") in img'.generated - img.generated <==>
      ExchangeExtension(output, "_0.pgx") !in img.generated && exitCode == 0 && ExchangeExtension(output, "_0.pgx") in files
    ensures img'.(inProgress := img.inProgress, generated := img.generated) == img
  {
    var first := ExchangeExtension(output, "_0.pgx");
    img.(inProgress := img.inProgress - {output},
         generated := if exitCode == 0 && first in files then img.generated + {first} else img.generated)
  }

  /** `existsPgx`: nine identical existence checks of the component-0 artifact. */
  method ExistsPgx(files: Files, output: string) returns (found: Option<string>)
    ensures found.Some? <==> ExchangeExtension(output, "_0.pgx") in files
    ensures found.Some? ==> found.value == ExchangeExtension(output, "_0.pgx")
  {
    var i := 0;
    while i < 3 * 3
      invariant 0 <= i <= 9
      invariant 0 < i ==> ExchangeExtension(output, "_0.pgx") !in files
    {
      var modFile := ExchangeExtension(output, "_0.pgx");
      if modFile in files {
        return Some(modFile);
      }
      i := i + 1;
    }
    return None;
  }

  /** The files a decoder run leaves in the cache directory. */
  function AfterRun(files: Files, name: string, launch: Launch): Files {
    if launch.Exited? && launch.written.Some? then files[name := launch.written.value] else files
  }

  /** The result of a tile request: the image's bookkeeping, the cache directory,
      the buffer or the exception, and the decoder run it started, if any. */
  datatype Read = Read(image: Image, files: Files, outcome: Outcome, decoded: Option<Invocation>)

  /** `readTileData(componentIndex, tileX, tileY, tileData)`. The component index is
      not used: the component-0 artifact is always the one read. */
  function ReadTile(img: Image, files: Files, launch: Launch, tileX: int32, tileY: int32, buf: seq<short>): (rd: Read)
    requires Sized(img)
    ensures Artifact(img, tileX, tileY) in files ==>
      rd == Read(img, files, Parse(img, files[Artifact(img, tileX, tileY)], buf), None)
    ensures Artifact(img, tileX, tileY) !in files ==> rd.decoded == Some(DecoderCall(img, tileX, tileY))
    ensures Artifact(img, tileX, tileY) !in files && launch.NotStarted? ==>
      rd == Read(img, files, Raised(DecoderNotStarted), Some(DecoderCall(img, tileX, tileY)))
    ensures Artifact(img, tileX, tileY) !in files && launch.Exited? ==>
      && rd.image.inProgress == img.inProgress - {Output(img, tileX, tileY)}
      && (Artifact(img, tileX, tileY) in rd.image.generated - img.generated <==>
          Artifact(img, tileX, tileY) in rd.files && launch.exitCode == 0 && Artifact(img, tileX, tileY) !in img.generated)
      && (Artifact(img, tileX, tileY) !in rd.files ==> rd.outcome == Filled(Zeros(|buf|)))
      && (Artifact(img, tileX, tileY) in rd.files ==>
          rd.outcome == Parse(img, rd.files[Artifact(img, tileX, tileY)], buf))
    ensures img.generated <= rd.image.generated <= img.generated + {Artifact(img, tileX, tileY)}
    ensures forall n | n != Artifact(img, tileX, tileY) :: (n in rd.files <==> n in files)
    ensures forall n | n in files :: n in rd.files && rd.files[n] == files[n]
    ensures rd.outcome.Filled? ==> |rd.outcome.tile| == |buf|
  {
    var name := Artifact(img, tileX, tileY);
    if name in files then
      Read(img, files, Parse(img, files[name], buf), None)
    else
      var call := DecoderCall(img, tileX, tileY);
      match launch
      case NotStarted => Read(img, files, Raised(DecoderNotStarted), Some(call))
      case Exited(code, _) =>
        ArtifactNameShape(img.source, img.resolution, tileX, tileY);
        OutputStem(img.source, img.resolution, tileX, tileY);
        var files' := AfterRun(files, name, launch);
        var img' := Observed(img, call.output, code, files');
        if name in files' then Read(img', files', Parse(img, files'[name], buf), Some(call))
        else Read(img', files', Filled(Zeros(|buf|)), Some(call))
  }

  /** Exchanging the output name's extension for `_0.pgx` gives the artifact name. */
  lemma OutputStem(source: string, r: int, x: int, y: int)
    ensures ExchangeExtension(OutputName(source, r, x, y), "_0.pgx") == ArtifactName(source, r, x, y)
  {
  }

  /** `dispose()`: forgets the generated artifacts; nothing is deleted. */
  function Dispose(img: Image): (img': Image)
    ensures img'.generated == {}
    ensures img'.(generated := img.generated) == img
  {
    img.(generated := {})
  }

  // ---------------------------------------------------------------- properties

  /** A second request for a tile never decodes: whatever the first request did,
      if it left the artifact, the second reads it, and a decoder run after the
      first makes no difference. */
  lemma SecondReadHits(img: Image, files: Files, launch1: Launch, launch2: Launch, tileX: int32, tileY: int32, buf: seq<short>)
    requires Sized(img)
    requires Artifact(img, tileX, tileY) in ReadTile(img, files, launch1, tileX, tileY, buf).files
    ensures var rd1 := ReadTile(img, files, launch1, tileX, tileY, buf);
      var rd2 := ReadTile(rd1.image, rd1.files, launch2, tileX, tileY, buf);
      && rd2.decoded == None
      && rd2.files == rd1.files
      && rd2.image == rd1.image
      && rd2.outcome == rd1.outcome
  {
    var rd1 := ReadTile(img, files, launch1, tileX, tileY, buf);
    assert Artifact(rd1.image, tileX, tileY) == Artifact(img, tileX, tileY);
  }

  /** A request that found no artifact afterwards leaves the cache as it was, so the
      next request for the tile tries the decoder again. */
  lemma ZeroFillRetries(img: Image, files: Files, launch1: Launch, launch2: Launch, tileX: int32, tileY: int32, buf: seq<short>)
    requires Sized(img)
    requires Artifact(img, tileX, tileY) !in ReadTile(img, files, launch1, tileX, tileY, buf).files
    ensures var rd1 := ReadTile(img, files, launch1, tileX, tileY, buf);
      && rd1.files == files
      && ReadTile(rd1.image, rd1.files, launch2, tileX, tileY, buf).decoded == Some(DecoderCall(img, tileX, tileY))
  {
    var rd1 := ReadTile(img, files, launch1, tileX, tileY, buf);
    assert Artifact(rd1.image, tileX, tileY) == Artifact(img, tileX, tileY);
    assert DecoderCall(rd1.image, tileX, tileY) == DecoderCall(img, tileX, tileY);
    assert rd1.files == files;
  }

  /** A request for one tile leaves every other tile's artifact of the image as it
      was: distinct keys never share an artifact. */
  lemma OtherTilesUntouched(img: Image, files: Files, launch: Launch, tileX: int32, tileY: int32, otherX: int32, otherY: int32, buf: seq<short>)
    requires Sized(img)
    requires otherX != tileX || otherY != tileY
    ensures var rd := ReadTile(img, files, launch, tileX, tileY, buf);
      var other := Artifact(img, otherX, otherY);
      && (other in rd.files <==> other in files)
      && (other in files ==> rd.files[other] == files[other])
  {
    if Artifact(img, otherX, otherY) == Artifact(img, tileX, tileY) {
      ArtifactNameInjective(img.source, img.resolution, otherX, otherY, img.resolution, tileX, tileY);
    }
  }

  /** Disposing forgets the generated set only: the artifacts stay in the cache and
      a later request for the same tile reads them without decoding. Disposing twice
      is disposing once. */
  lemma DisposeKeepsArtifacts(img: Image, files: Files, launch: Launch, tileX: int32, tileY: int32, buf: seq<short>)
    requires Sized(img)
    requires Artifact(img, tileX, tileY) in files
    ensures Dispose(Dispose(img)) == Dispose(img)
    ensures Sized(Dispose(img))
    ensures ReadTile(Dispose(img), files, launch, tileX, tileY, buf).decoded == None
    ensures ReadTile(Dispose(img), files, launch, tileX, tileY, buf).outcome
            == ReadTile(img, files, launch, tileX, tileY, buf).outcome
  {
    assert Artifact(Dispose(img), tileX, tileY) == Artifact(img, tileX, tileY);
    assert TileWidth(Dispose(img)) == TileWidth(img) && TileHeight(Dispose(img)) == TileHeight(img);
  }

  /** For the fixed 3 x 3 layout, the only one `open` gives, the index the decoder
      is handed is the row-major one. */
  lemma FixedLayoutIndexIsRowMajor(img: Image, tileX: int32, tileY: int32)
    requires img.layout == ExeLayout
    ensures DecoderCall(img, tileX, tileY).tileIndex == TileIndex(img.layout.numXTiles, tileX, tileY)
  {
    ExeTileIndexOnSquareGrid(img.layout, tileX, tileY);
  }

  /** On a layout of 3 x 2 tiles the decoder would be asked for tile 2 both for
      tile (0, 1) and for tile (2, 0), whose row-major indices are 3 and 2. */
  lemma NonSquareLayoutDecodesWrongTile(img: Image)
    requires img.layout.numXTiles == 3 && img.layout.numYTiles == 2
    ensures DecoderCall(img, 0, 1).tileIndex == DecoderCall(img, 2, 0).tileIndex == 2
    ensures TileIndex(img.layout.numXTiles, 0, 1) == 3
  {
  }

  /** Every tile of the fixed layout gets its own decoder index in `[0, 9)`. */
  lemma FixedLayoutIndexInGrid(img: Image, tileX: int32, tileY: int32)
    requires img.layout == ExeLayout && InGrid(3, 3, tileX, tileY)
    ensures 0 <= DecoderCall(img, tileX, tileY).tileIndex < 9
  {
    FixedLayoutIndexIsRowMajor(img, tileX, tileY);
    TileIndexInverse(3, 3, tileX, tileY);
  }

  /** A fresh decode of a full tile at level 3 of the fixed layout delivers the
      decoded samples and records the artifact as generated. */
  lemma DecodeOnMissExample(source: string, path: string, h: Header, samples: seq<short>, buf: seq<short>)
    requires WritableHeader(h) && h.width == 512 && h.height == 512
    requires |samples| == 512 * 512 && |buf| == 512 * 512
    ensures var img := Open(source, path, 3);
      var rd := ReadTile(img, map[], Exited(0, Some(PgxBytes(h, samples))), 1, 2, buf);
      && rd.outcome == Filled(samples)
      && rd.image.generated == {ArtifactName(source, 3, 1, 2)}
      && rd.decoded == Some(Invocation(path, OutputName(source, 3, 1, 2), 3, 7))
  {
    var img := Open(source, path, 3);
    ExeLayoutValid();
    assert TileWidth(img) == 512 && TileHeight(img) == 512;
    PgxFullTile(h, samples, 512, 512, buf);
  }
}

=== FILE: file_name_info.dfy ===
/** `S2FileNameInfo`: the fixed-width file-name pattern of Sentinel-2 image files,
    its six captured fields, and the band lookup among files of the same product.
    Java's `\d` (without UNICODE_CHARACTER_CLASS) and `[A-Z]` are ASCII classes;
    an unescaped `.` is any character but a line terminator. */
module FileNameInfo {
  import opened Options
  import opened JavaInt
  import opened Text

  /** A created instance: the name and its six groups. `productType` is the Java
      field `type`. */
  datatype Info = Info(fileName: string, productType: string, orbit: string, start: string,
                       stop: string, band: string, utmId: string)

  predicate IsUpper(c: char) {
    'A' <= c <= 'Z'
  }

  predicate AllUpper(s: string) {
    forall i | 0 <= i < |s| :: IsUpper(s[i])
  }

  predicate AllUpperOrDigit(s: string) {
    forall i | 0 <= i < |s| :: IsUpper(s[i]) || IsDigit(s[i])
  }

  /** What Java's `.` refuses when DOTALL is off. */
  predicate IsLineTerminator(c: char) {
    c == '\n' || c == '\r' || c == '\U{0085}' || c == '\U{2028}' || c == '\U{2029}'
  }

  /** `REGEX`, matched against the whole name: `IMG_GPP`, three upper-case letters
      or digits (type), `_`, three digits (orbit), `_`, fourteen digits (start), `_`,
      fourteen digits (stop), `_`, two digits (band), `_000000_`, two digits and
      three upper-case letters (UTM id), any one character, `jp2`. */
  predicate FileNameMatches(s: string) {
    && |s| == 64
    && s[..7] == "IMG_GPP"
    && AllUpperOrDigit(s[7..10]) && s[10] == '_'
    && AllDigits(s[11..14]) && s[14] == '_'
    && AllDigits(s[15..29]) && s[29] == '_'
    && AllDigits(s[30..44]) && s[44] == '_'
    && AllDigits(s[45..47])
    && s[47..55] == "_000000_"
    && AllDigits(s[55..57]) && AllUpper(s[57..60])
    && !IsLineTerminator(s[60])
    && s[61..] == "jp2"
  }

  /** The six fields have the widths and character classes of their groups. */
  predicate WellFormedFields(i: Info) {
    && |i.productType| == 3 && AllUpperOrDigit(i.productType)
    && |i.orbit| == 3 && AllDigits(i.orbit)
    && |i.start| == 14 && AllDigits(i.start)
    && |i.stop| == 14 && AllDigits(i.stop)
    && |i.band| == 2 && AllDigits(i.band)
    && |i.utmId| == 5 && AllDigits(i.utmId[..2]) && AllUpper(i.utmId[2..])
  }

  /** The text up to the band: `IMG_GPP<type>_<orbit>_<start>_<stop>_`. */
  function Prefix(i: Info): string {
    "IMG_GPP" + i.productType + "_" + i.orbit + "_" + i.start + "_" + i.stop + "_"
  }

  /** A file name assembled from fields, with `sep` before the `jp2` extension. */
  function Compose(i: Info, sep: char): string {
    Prefix(i) + i.band + "_000000_" + i.utmId + [sep] + "jp2"
  }

  /** `S2FileNameInfo.create(fileName)`: the six groups when the whole name
      matches, `None` (null) otherwise. */
  function Create(s: string): (r: Option<Info>)
    ensures r.Some? ==> r.value.fileName == s && WellFormedFields(r.value)
  {
    if FileNameMatches(s) then
      UtmSlices(s);
      Some(Info(s, s[7..10], s[11..14], s[15..29], s[30..44], s[45..47], s[55..60]))
    else None
  }

  lemma UtmSlices(s: string)
    requires |s| == 64
    ensures s[55..60][..2] == s[55..57] && s[55..60][2..] == s[57..60]
  {
  }

  /** A name is made of its fields: every created instance reassembles to its name. */
  lemma CreateDecomposes(s: string)
    requires Create(s).Some?
    ensures s == Compose(Create(s).value, s[60])
  {
    var i := Create(s).value;
    var c := Compose(i, s[60]);
    assert |c| == 64;
    forall k | 0 <= k < 64
      ensures c[k] == s[k]
    {
      if k < 7 {
        assert s[..7][k] == s[k];
      } else if 47 <= k < 55 {
        assert s[47..55][k - 47] == s[k];
      } else if 61 <= k {
        assert s[61..][k - 61] == s[k];
      }
    }
  }

  /** Any well-formed fields, separated from `jp2` by any character but a line
      terminator, make a name that matches and captures exactly those fields. */
  lemma CreateComposed(i: Info, sep: char)
    requires WellFormedFields(i) && !IsLineTerminator(sep)
    ensures Create(Compose(i, sep)) == Some(i.(fileName := Compose(i, sep)))
  {
    var s := Compose(i, sep);
    assert |s| == 64;
    assert s[..7] == "IMG_GPP";
    assert s[7..10] == i.productType && s[11..14] == i.orbit;
    assert s[15..29] == i.start && s[30..44] == i.stop;
    assert s[45..47] == i.band && s[47..55] == "_000000_";
    assert s[55..60] == i.utmId && s[61..] == "jp2";
    assert s[55..57] == i.utmId[..2] && s[57..60] == i.utmId[2..];
  }

  /** Two decimal digits parse to their value. */
  lemma ParseTwoDigits(s: string)
    ensures |s| == 2 && AllDigits(s) ==>
      ParseInt(s) == Some(10 * (s[0] as int - '0' as int) + (s[1] as int - '0' as int))
  {
    if |s| == 2 && AllDigits(s) {
      assert s[..1][..0] == [];
      assert DigitsValue(s[..1]) == s[0] as int - '0' as int;
    }
  }

  /** `getBand()`: the band field as a number, -1 when it does not parse. For a
      created instance it is the two-digit value, never -1. */
  function GetBand(i: Info): (b: int)
    ensures WellFormedFields(i) ==> b == 10 * (i.band[0] as int - '0' as int) + (i.band[1] as int - '0' as int)
    ensures WellFormedFields(i) ==> 0 <= b <= 99
  {
    ParseTwoDigits(i.band);
    match ParseInt(i.band)
      case None => -1
      case Some(v) => v
  }

  /** The instance's own pattern, `String.format(FORMAT, type, orbit, start, stop,
      utmId)`: its prefix and UTM id read literally (letters and digits are no
      regex operators), a two-digit band group, `_000000_`, any character but a
      line terminator, `jp2`. */
  predicate InstanceMatches(i: Info, s: string) {
    var p := |Prefix(i)|;
    var u := p + 10;
    && |s| == u + |i.utmId| + 4
    && s[..p] == Prefix(i)
    && AllDigits(s[p..p + 2])
    && s[p + 2..u] == "_000000_"
    && s[u..u + |i.utmId|] == i.utmId
    && !IsLineTerminator(s[u + |i.utmId|])
    && s[u + |i.utmId| + 1..] == "jp2"
  }

  /** `getBand(fileName)`: the band group of a name the instance's pattern matches,
      -1 for any other name. */
  function GetBandOf(i: Info, s: string): int {
    if InstanceMatches(i, s) then
      var p := |Prefix(i)|;
      match ParseInt(s[p..p + 2])
        case None => -1
        case Some(v) => v
    else -1
  }

  /** Same type, orbit, start, stop and UTM id: two bands of one product tile. */
  predicate SameProduct(a: Info, b: Info) {
    a.productType == b.productType && a.orbit == b.orbit && a.start == b.start &&
    a.stop == b.stop && a.utmId == b.utmId
  }

  /** For well-formed fields the prefix is 45 characters: the band always sits at
      45..47 and the UTM id at 55..60. */
  lemma PrefixLength(i: Info)
    requires WellFormedFields(i)
    ensures |Prefix(i)| == 45
  {
  }

  /** The instance's pattern accepts exactly the names composed of the instance's
      fields with some two-digit band and some separator before `jp2`. */
  lemma InstanceMatchesComposed(i: Info, s: string)
    requires WellFormedFields(i)
    ensures InstanceMatches(i, s) <==>
      |s| == 64 && AllDigits(s[45..47]) && !IsLineTerminator(s[60]) && s == Compose(i.(band := s[45..47]), s[60])
  {
    PrefixLength(i);
    if InstanceMatches(i, s) {
      var c := Compose(i.(band := s[45..47]), s[60]);
      assert |c| == 64;
      forall k | 0 <= k < 64
        ensures c[k] == s[k]
      {
        if k < 45 {
          assert s[..45][k] == s[k];
        } else if 47 <= k < 55 {
          assert s[47..55][k - 47] == s[k];
        } else if 55 <= k < 60 {
          assert s[55..60][k - 55] == s[k];
        } else if 61 <= k {
          assert s[61..][k - 61] == s[k];
        }
      }
    }
    if |s| == 64 && AllDigits(s[45..47]) && !IsLineTerminator(s[60]) && s == Compose(i.(band := s[45..47]), s[60]) {
      assert Prefix(i.(band := s[45..47])) == Prefix(i);
      assert s[..45] == Prefix(i);
      assert s[47..55] == "_000000_";
      assert s[55..60] == i.utmId;
      assert s[61..] == "jp2";
    }
  }

  /** `getBand(other)` answers for exactly the names `create` accepts that belong to
      the same product (same type, orbit, start, stop and UTM id), and then with the
      other name's band; every other name gives -1. */
  lemma GetBandOfSameProduct(i: Info, s: string)
    requires WellFormedFields(i)
    ensures InstanceMatches(i, s) <==> Create(s).Some? && SameProduct(i, Create(s).value)
    ensures GetBandOf(i, s) != -1 <==> Create(s).Some? && SameProduct(i, Create(s).value)
    ensures GetBandOf(i, s) != -1 ==> GetBandOf(i, s) == GetBand(Create(s).value)
  {
    PrefixLength(i);
    InstanceMatchesComposed(i, s);
    if InstanceMatches(i, s) {
      var j := i.(band := s[45..47]);
      CreateComposed(j, s[60]);
      assert Create(s) == Some(j.(fileName := s));
      ParseTwoDigits(s[45..47]);
    }
    if Create(s).Some? && SameProduct(i, Create(s).value) {
      var c := Create(s).value;
      CreateDecomposes(s);
      assert Prefix(c) == Prefix(i.(band := s[45..47]));
      assert Compose(c, s[60]) == Compose(i.(band := s[45..47]), s[60]);
    }
  }

  /** An instance's own name yields its own band: its pattern matches the name it
      was created from. */
  lemma SelfBand(name: string)
    requires Create(name).Some?
    ensures GetBandOf(Create(name).value, name) == GetBand(Create(name).value) != -1
  {
    GetBandOfSameProduct(Create(name).value, name);
  }

  /** The fields of the test product's band 1. */
  const TestFields := Info("", "L1C", "054", "20091210235100", "20091210235130", "01", "15TVE")

  lemma TestFieldsWellFormed()
    ensures WellFormedFields(TestFields)
  {
  }

  /** The test name `IMG_GPPL1C_054_20091210235100_20091210235130_01_000000_15TVE.jp2`
      (the fields of the test product joined by `Compose`) is created with
      exactly its six groups: type L1C, orbit 054, the two times, band 01 and UTM id
      15TVE; its band is 1. */
  lemma ValidFileNameExample()
    ensures var name := Compose(TestFields, '.');
      && |name| == 64 && name[..7] == "IMG_GPP" && name[60] == '.'
      && Create(name) == Some(Info(name, "L1C", "054", "20091210235100", "20091210235130", "01", "15TVE"))
      && GetBand(Create(name).value) == 1
  {
    TestFieldsWellFormed();
    CreateComposed(TestFields, '.');
  }

  /** Looking up another band of the same product gives that band's number. */
  lemma BandOfSameProduct(i: Info, band: string, sep: char)
    requires WellFormedFields(i) && |band| == 2 && AllDigits(band) && !IsLineTerminator(sep)
    ensures GetBandOf(i, Compose(i.(band := band), sep)) == GetBand(i.(band := band))
  {
    var other := i.(band := band);
    CreateComposed(other, sep);
    GetBandOfSameProduct(i, Compose(other, sep));
  }

  /** Bands 05 and 11 of the test product are looked up as 5 and 11. */
  lemma SameProductBandExample()
    ensures GetBandOf(TestFields, Compose(TestFields.(band := "05"), '.')) == 5
    ensures GetBandOf(TestFields, Compose(TestFields.(band := "11"), '.')) == 11
  {
    TestFieldsWellFormed();
    BandOfSameProduct(TestFields, "05", '.');
    BandOfSameProduct(TestFields, "11", '.');
  }

  /** A name of another UTM tile is never looked up, whatever its band. */
  lemma OtherTileBand(i: Info, band: string, utmId: string, sep: char)
    requires WellFormedFields(i) && WellFormedFields(i.(band := band, utmId := utmId))
    requires utmId != i.utmId && !IsLineTerminator(sep)
    ensures GetBandOf(i, Compose(i.(band := band, utmId := utmId), sep)) == -1
  {
    var other := i.(band := band, utmId := utmId);
    CreateComposed(other, sep);
    GetBandOfSameProduct(i, Compose(other, sep));
  }

  /** Band 11 of UTM tile 15SUD is not part of the test product: -1. */
  lemma OtherTileBandExample()
    ensures GetBandOf(TestFields, Compose(TestFields.(band := "11", utmId := "15SUD"), '.')) == -1
  {
    TestFieldsWellFormed();
    assert "15SUD"[..2] == "15" && "15SUD"[2..] == "SUD";
    assert "15SUD"[2] != "15TVE"[2];
    OtherTileBand(TestFields, "11", "15SUD", '.');
  }

  /** Metadata and thumbnail names are not image names. */
  lemma InvalidFileNameExample()
    ensures Create("MTD_GPPL1C_054_20091210235100_20091210235130_0001.xml").None?
    ensures Create("TBN_GPPL1C_054_20091210235100_20091210235130_000000_15SUD.jpg").None?
  {
  }
}

=== FILE: java_int.dfy ===
/** Java's fixed-width integer arithmetic written out over Dafny's unbounded `int`:
    the 32-bit `int` with two's-complement wrap-around, the `(short)` narrowing cast,
    the arithmetic shift `>>` whose count is masked to five bits, and `/` that
    truncates toward zero. */
module JavaInt {

  const MIN_INT: int := -0x8000_0000
  const MAX_INT: int := 0x7FFF_FFFF
  const TWO_32: int := 0x1_0000_0000

  type int32 = x: int | MIN_INT <= x <= MAX_INT
  /** A Java `short`, the sample type of every tile buffer. */
  type short = x: int | -0x8000 <= x < 0x8000
  /** An unsigned byte as read from a stream (`read()` returns 0..255). */
  type byte = x: int | 0 <= x < 0x100

  predicate IsInt(x: int) {
    MIN_INT <= x <= MAX_INT
  }

  /** Two's-complement wrap of an exact result into the `int` range. */
  function Wrap32(x: int): (r: int32)
    ensures IsInt(x) ==> r == x
    ensures (x - r) % TWO_32 == 0
  {
    (x - MIN_INT) % TWO_32 + MIN_INT
  }

  /** Java `a * b` on two `int`s. */
  function Mul32(a: int32, b: int32): (r: int32)
    ensures IsInt(a * b) ==> r == a * b
    ensures (a * b - r) % TWO_32 == 0
  {
    Wrap32(a * b)
  }

  /** Java `a + b` on two `int`s. */
  function Add32(a: int32, b: int32): (r: int32)
    ensures IsInt(a + b) ==> r == a + b
    ensures (a + b - r) % TWO_32 == 0
  {
    Wrap32(a + b)
  }

  /** The `(short)` cast: keeps the low 16 bits, read as a signed value. */
  function Narrow(x: int): (r: short)
    ensures -0x8000 <= x < 0x8000 ==> r == x
    ensures (x - r) % 0x1_0000 == 0
  {
    (x + 0x8000) % 0x1_0000 - 0x8000
  }

  function Pow2(n: nat): (p: nat)
    ensures p >= 1
  {
    if n == 0 then 1 else 2 * Pow2(n - 1)
  }

  /** Java `x >> r` on an `int`: the count is taken modulo 32 and the shift is
      arithmetic, i.e. it rounds toward negative infinity. Dafny's `/` by a positive
      divisor is floor division, which is exactly that. */
  function Shr(x: int, r: int): (s: int)
    ensures 0 <= r < 32 ==> s * Pow2(r) <= x < (s + 1) * Pow2(r)
    ensures 0 <= x ==> 0 <= s <= x
    ensures x < 0 ==> x <= s < 0
  {
    DivBounds(x, Pow2(r % 32));
    x / Pow2(r % 32)
  }

  /** Floor division brackets its dividend between consecutive multiples. */
  lemma DivBounds(x: int, p: int)
    requires 0 < p
    ensures (x / p) * p <= x < (x / p + 1) * p
    ensures 0 <= x ==> 0 <= x / p <= x
    ensures x < 0 ==> x <= x / p < 0
  {
    QuotientBounds(x, p, x / p, x % p);
  }

  /** The same bracket for any quotient and remainder in Euclidean form. */
  lemma QuotientBounds(x: int, p: int, q: int, r: int)
    requires 0 < p && x == q * p + r && 0 <= r < p
    ensures q * p <= x < (q + 1) * p
    ensures 0 <= x ==> 0 <= q <= x
    ensures x < 0 ==> x <= q < 0
  {
    assert (q + 1) * p == q * p + p;
    if 0 <= x {
      if q < 0 {
        MulMono(q, -1, p);
      }
      MulMono(1, p, q);
    } else {
      if 0 <= q {
        MulNonneg(q, p);
      }
      MulMono(1, -q, p - 1);
      assert (-q) * (p - 1) == q - q * p;
    }
  }

  /** Java `a / b` on `int`s with `b != 0`: the quotient truncates toward zero, so
      the remainder has the sign of the dividend and is smaller than the divisor. */
  function JavaDiv(a: int, b: int): (q: int)
    requires b != 0
    ensures Abs(a - q * b) < Abs(b)
    ensures a - q * b == 0 || (a - q * b < 0 <==> a < 0)
  {
    var m := Abs(a) / Abs(b);
    var q := if (a < 0) == (b < 0) then m else -m;
    TruncatedRemainder(a, b, m, q);
    q
  }

  lemma TruncatedRemainder(a: int, b: int, m: int, q: int)
    requires b != 0 && m == Abs(a) / Abs(b)
    requires q == if (a < 0) == (b < 0) then m else -m
    ensures Abs(a - q * b) < Abs(b)
    ensures a - q * b == 0 || (a - q * b < 0 <==> a < 0)
  {
    var A: int, B: int := Abs(a), Abs(b);
    var rem: int := A % B;
    assert A == m * B + rem && 0 <= rem < B;
    // q * b has the sign of a and magnitude m * B, so a - q * b is rem or -rem
    var mb: int := m * B;
    if a >= 0 {
      assert q * b == mb by {
        if b < 0 { assert q * b == (-m) * (-B); }
      }
      assert a - q * b == rem;
    } else {
      assert q * b == -mb by {
        if b > 0 { assert q * b == (-m) * B; } else { assert q * b == m * (-B); }
      }
      assert a - q * b == -rem;
    }
  }

  function Abs(x: int): nat {
    if x < 0 then -x else x
  }

  function Min(a: int, b: int): (m: int)
    ensures m <= a && m <= b && (m == a || m == b)
  {
    if a < b then a else b
  }

  lemma AbsMul(a: int, b: int)
    ensures Abs(a * b) == Abs(a) * Abs(b)
  {
    if a < 0 && b < 0 {
      assert a * b == (-a) * (-b);
    } else if a < 0 {
      assert -(a * b) == (-a) * b;
    } else if b < 0 {
      assert -(a * b) == a * (-b);
    }
  }

  /** Java's shift masks its count: shifting by `r` and by `r + 32` agree. */
  lemma ShrMasksCount(x: int, r: int)
    ensures Shr(x, r + 32) == Shr(x, r)
  {
    assert (r + 32) % 32 == r % 32;
  }

  /** One more level halves the size again (for counts below 31, nonnegative values). */
  lemma {:induction false} ShrStep(x: int, r: nat)
    requires 0 <= x && r < 31
    ensures Shr(x, r + 1) == Shr(x, r) / 2
  {
    assert r % 32 == r && (r + 1) % 32 == r + 1;
    assert Pow2(r + 1) == 2 * Pow2(r);
    DivDiv(x, Pow2(r), 2);
  }

  lemma DivDiv(x: int, a: int, b: int)
    requires 0 <= x && 0 < a && 0 < b
    ensures x / (a * b) == (x / a) / b
  {
    var q := x / a;
    var q2 := q / b;
    var r1 := x % a;
    var r2 := q % b;
    assert x == q * a + r1 && 0 <= r1 < a;
    assert q == q2 * b + r2 && 0 <= r2 < b;
    Regroup(q2, b, r2, a);
    MulMono(r2, b - 1, a);
    Regroup(1, b - 1, 0, a);
    var rest := r2 * a + r1;
    MulNonneg(r2, a);
    DivUnique(x, a * b, q2, rest);
  }

  lemma Regroup(q: int, b: int, r: int, a: int)
    ensures (q * b + r) * a == q * (a * b) + r * a
  {
  }

  lemma DivUnique(x: int, d: int, q: int, r: int)
    requires 0 < d && x == q * d + r && 0 <= r < d
    ensures x / d == q
  {
    var q0 := x / d;
    assert x == q0 * d + x % d;
    if q0 < q {
      MulMono(q0 + 1, q, d);
    } else if q0 > q {
      MulMono(q + 1, q0, d);
    }
  }

  /** Products of nonnegative numbers are nonnegative. */
  lemma {:induction false} MulNonneg(x: int, y: int)
    requires 0 <= x && 0 <= y
    ensures 0 <= x * y
  {
    if y > 0 {
      MulNonneg(x, y - 1);
      assert x * y == x * (y - 1) + x;
    }
  }

  /** Multiplying by a nonnegative number preserves `<=`. */
  lemma MulMono(a: int, b: int, c: int)
    requires a <= b && 0 <= c
    ensures a * c <= b * c
  {
    MulNonneg(b - a, c);
    assert (b - a) * c == b * c - a * c;
  }

  /** Multiplying by a positive number preserves `<`. */
  lemma MulStrict(a: int, b: int, c: int)
    requires a < b && 0 < c
    ensures a * c < b * c
  {
    MulMono(a + 1, b, c);
    assert (a + 1) * c == a * c + c;
  }
}

=== FILE: layout.dfy ===
/** Image geometry: the immutable `Jp2Image.Layout` record, the tile size at a
    resolution level, the tile index handed to the decoder, and the fixed geometry
    and tile-size policy of the Sentinel-2 reader. */
module Layout {
  import opened JavaInt

  /** `Jp2Image.Layout`: ten `final int` fields, each set from the constructor
      argument of the same name, in this order, without any validation. A datatype
      value is immutable, which is what the `final` fields give the Java record. */
  datatype Layout = Layout(
    numResolutions: int32,
    numComponents: int32,
    width: int32,
    height: int32,
    numXTiles: int32,
    numYTiles: int32,
    tileOffsetX: int32,
    tileOffsetY: int32,
    tileWidth: int32,
    tileHeight: int32)

  /** The layout `Jp2ExeImage` reports for every file: six levels, one component,
      10960 x 10960 pixels in a 3 x 3 grid of 4096 x 4096 tiles. */
  const ExeLayout: Layout := Layout(6, 1, 10960, 10960, 3, 3, 0, 0, 4096, 4096)

  /** Tile width at level `r`: `layout.tileWidth >> r`. */
  function LevelTileWidth(l: Layout, r: int): int32 {
    Shr(l.tileWidth, r)
  }

  /** Tile height at level `r`: `layout.tileHeight >> r`. */
  function LevelTileHeight(l: Layout, r: int): int32 {
    Shr(l.tileHeight, r)
  }

  /** What a layout has to satisfy to describe a real image: positive counts and
      sizes, a tile size that stays positive at every level, and a tile grid that
      covers the image without a tile lying wholly outside it. The constructor checks
      none of this. */
  predicate ValidLayout(l: Layout) {
    && 1 <= l.numResolutions <= 32
    && 1 <= l.numComponents
    && 0 < l.width && 0 < l.height
    && 1 <= l.numXTiles && 1 <= l.numYTiles
    && 0 <= l.tileOffsetX && 0 <= l.tileOffsetY
    && 0 < l.tileWidth && 0 < l.tileHeight
    && (forall r | 0 <= r < l.numResolutions :: 0 < LevelTileWidth(l, r) && 0 < LevelTileHeight(l, r))
    && l.tileOffsetX + (l.numXTiles - 1) * l.tileWidth < l.width <= l.tileOffsetX + l.numXTiles * l.tileWidth
    && l.tileOffsetY + (l.numYTiles - 1) * l.tileHeight < l.height <= l.tileOffsetY + l.numYTiles * l.tileHeight
  }

  /** The tile side at each of the six levels of the fixed layout. */
  const LevelSides: seq<int> := [4096, 2048, 1024, 512, 256, 128]

  /** The fixed layout is valid, and its tile side halves from 4096 at level 0 down
      to 128 at level 5. */
  lemma ExeLayoutValid()
    ensures ValidLayout(ExeLayout)
    ensures forall r | 0 <= r < 6 ::
      LevelTileWidth(ExeLayout, r) == LevelSides[r] && LevelTileHeight(ExeLayout, r) == LevelSides[r]
  {
    assert Pow2(0) == 1 && Pow2(1) == 2 && Pow2(2) == 4;
    assert Pow2(3) == 8 && Pow2(4) == 16 && Pow2(5) == 32;
    forall r | 0 <= r < 6
      ensures LevelTileWidth(ExeLayout, r) == LevelSides[r]
    {
      assert r % 32 == r;
    }
  }

  // ---------------------------------------------------------------- tile index

  /** Row-major tile index `numXTiles * tileY + tileX` in Java `int` arithmetic: the
      index the Sentinel-2 reader passes to the decoder, and the intended one. */
  function TileIndex(numXTiles: int32, tileX: int32, tileY: int32): int32 {
    Add32(Mul32(numXTiles, tileY), tileX)
  }

  /** The index `Jp2ExeImage.decompressTile` computes as written: it multiplies by
      `numYTiles` instead of `numXTiles`. */
  function ExeTileIndexAsWritten(l: Layout, tileX: int32, tileY: int32): int32 {
    Add32(Mul32(l.numYTiles, tileY), tileX)
  }

  predicate InGrid(numXTiles: int, numYTiles: int, tileX: int, tileY: int) {
    0 <= tileX < numXTiles && 0 <= tileY < numYTiles
  }

  /** Inside a grid whose tile count fits in an `int`, the row-major index is a
      position in `[0, numXTiles * numYTiles)` from which division and remainder by
      `numXTiles` recover the tile, so distinct tiles get distinct indices. */
  lemma TileIndexInverse(numXTiles: int32, numYTiles: int32, tileX: int32, tileY: int32)
    requires InGrid(numXTiles, numYTiles, tileX, tileY)
    requires numXTiles * numYTiles <= MAX_INT
    ensures 0 <= TileIndex(numXTiles, tileX, tileY) < numXTiles * numYTiles
    ensures TileIndex(numXTiles, tileX, tileY) / numXTiles == tileY
    ensures TileIndex(numXTiles, tileX, tileY) % numXTiles == tileX
  {
    MulMono(tileY, numYTiles - 1, numXTiles);
    MulNonneg(numXTiles, tileY);
    var i := numXTiles * tileY + tileX;
    assert i <= numXTiles * numYTiles - 1;
    assert TileIndex(numXTiles, tileX, tileY) == i;
    DivUnique(i, numXTiles, tileY, tileX);
  }

  /** Two tiles of the same grid share an index only if they are the same tile. */
  lemma TileIndexInjective(numXTiles: int32, numYTiles: int32, x1: int32, y1: int32, x2: int32, y2: int32)
    requires InGrid(numXTiles, numYTiles, x1, y1) && InGrid(numXTiles, numYTiles, x2, y2)
    requires numXTiles * numYTiles <= MAX_INT
    requires TileIndex(numXTiles, x1, y1) == TileIndex(numXTiles, x2, y2)
    ensures x1 == x2 && y1 == y2
  {
    TileIndexInverse(numXTiles, numYTiles, x1, y1);
    TileIndexInverse(numXTiles, numYTiles, x2, y2);
  }

  /** On a square grid, such as the 3 x 3 grid of the fixed layout, the index
      `Jp2ExeImage` computes is the row-major one. */
  lemma ExeTileIndexOnSquareGrid(l: Layout, tileX: int32, tileY: int32)
    requires l.numXTiles == l.numYTiles
    ensures ExeTileIndexAsWritten(l, tileX, tileY) == TileIndex(l.numXTiles, tileX, tileY)
  {
  }

  /** On a 3-wide, 2-high grid the index as written sends tile (0, 1) to 2, the
      row-major index of tile (2, 0): the decoder would be asked for the wrong tile. */
  lemma ExeTileIndexCollides()
    ensures var l := ExeLayout.(numYTiles := 2);
      && ExeTileIndexAsWritten(l, 0, 1) == 2
      && TileIndex(l.numXTiles, 2, 0) == 2
      && TileIndex(l.numXTiles, 0, 1) == 3
  {
  }

  /** In a 3 x 3 grid tile (2, 1) has index 3 * 1 + 2 = 5, whatever the level. */
  lemma TileIndexExample()
    ensures TileIndex(3, 2, 1) == 5
  {
  }

  // ---------------------------------------------------------------- Sentinel-2 reader geometry

  /** The geometry fields the Sentinel-2 reader's constructor fixes. */
  datatype ReaderGeometry = ReaderGeometry(
    width: int32,
    height: int32,
    tileWidth: int32,
    tileHeight: int32,
    numXTiles: int32,
    numYTiles: int32,
    numResolutions: int32)

  const S2Geometry: ReaderGeometry := ReaderGeometry(10960, 10960, 4096, 4096, 3, 3, 6)

  /** A `java.awt.Dimension`. */
  datatype Dim = Dim(width: int, height: int)

  /** `getJp2TileDim(res)`: the JPEG 2000 tile size at level `res`. */
  function Jp2TileDim(g: ReaderGeometry, res: int): Dim {
    Dim(Shr(g.tileWidth, res), Shr(g.tileHeight, res))
  }

  /** `DEFAULT_TILE_SIZE`, the cap on the tile size of the rendered image. */
  const DEFAULT_TILE_SIZE: int := 512

  /** `getTileDim(res)`: the image tile size, each side the smaller of the
      JPEG 2000 tile side and 512. */
  function TileDim(g: ReaderGeometry, res: int): (d: Dim)
    ensures d.width <= DEFAULT_TILE_SIZE && d.width <= Jp2TileDim(g, res).width
    ensures d.height <= DEFAULT_TILE_SIZE && d.height <= Jp2TileDim(g, res).height
    ensures d.width == DEFAULT_TILE_SIZE || d.width == Jp2TileDim(g, res).width
    ensures d.height == DEFAULT_TILE_SIZE || d.height == Jp2TileDim(g, res).height
  {
    var jp2 := Jp2TileDim(g, res);
    Dim(if jp2.width < DEFAULT_TILE_SIZE then jp2.width else DEFAULT_TILE_SIZE,
        if jp2.height < DEFAULT_TILE_SIZE then jp2.height else DEFAULT_TILE_SIZE)
  }

  /** With the reader's geometry the JPEG 2000 tile side is 4096 >> res, as the
      comment in the reader lists it, and image tiles coincide with JPEG 2000 tiles
      from level 3 on, while below level 3 they are the 512 cap. */
  lemma S2LevelDims()
    ensures forall r | 0 <= r < 6 :: Jp2TileDim(S2Geometry, r) == Dim(LevelSides[r], LevelSides[r])
    ensures forall r | 3 <= r < 6 :: TileDim(S2Geometry, r) == Jp2TileDim(S2Geometry, r)
    ensures forall r | 0 <= r < 3 :: TileDim(S2Geometry, r) == Dim(512, 512)
  {
    assert Pow2(0) == 1 && Pow2(1) == 2 && Pow2(2) == 4;
    assert Pow2(3) == 8 && Pow2(4) == 16 && Pow2(5) == 32;
    forall r | 0 <= r < 6
      ensures Jp2TileDim(S2Geometry, r) == Dim(LevelSides[r], LevelSides[r])
    {
      assert r % 32 == r;
    }
  }

  /** At each of the six levels the rendered tile is square, between 128 and 512
      pixels on a side, and no larger than the JPEG 2000 tile. */
  lemma S2TileDimAt(level: int)
    requires 0 <= level < 6
    ensures Jp2TileDim(S2Geometry, level) == Dim(LevelSides[level], LevelSides[level])
    ensures var d := TileDim(S2Geometry, level);
      && d.width == d.height
      && 128 <= d.width <= 512
      && d.width <= LevelSides[level]
      && d.width * d.height <= MAX_INT
  {
    S2LevelDims();
    var d := TileDim(S2Geometry, level);
    MulMono(d.width, 512, d.width);
    MulMono(d.width, 512, 512);
  }

  /** The JPEG 2000 tile column (or row) of a request at pixel `x`: Java's truncating
      `x / jp2Width`. For a request inside the image the tile is the one whose pixel
      span holds `x`. */
  function Jp2TileOf(x: int, jp2Width: int): (c: int)
    requires jp2Width != 0
    ensures 0 <= x && 0 < jp2Width ==> c * jp2Width <= x < (c + 1) * jp2Width
    ensures 0 <= x && 0 < jp2Width ==> 0 <= c
  {
    var c := JavaDiv(x, jp2Width);
    TileOfBounds(x, jp2Width, c);
    c
  }

  lemma TileOfBounds(x: int, w: int, c: int)
    requires w != 0
    requires Abs(x - c * w) < Abs(w)
    requires x - c * w == 0 || (x - c * w < 0 <==> x < 0)
    ensures 0 <= x && 0 < w ==> c * w <= x < (c + 1) * w
    ensures 0 <= x && 0 < w ==> 0 <= c
  {
    if 0 <= x && 0 < w {
      assert 0 <= x - c * w < w;
      assert (c + 1) * w == c * w + w;
      if c < 0 {
        MulMono(c, -1, w);
      }
    }
  }
}

=== FILE: native.dfy ===
/** The native library `jopenjpeg2.c`: the pixel copy from a decoded component into
    a caller's tile buffer, the tile and region reads around it, the image-info
    record, and the lifetime of the image handle. The OpenJPEG calls themselves are
    opaque: whether each one succeeds, and what it decoded, are parameters. C
    `unsigned int` values are `uint32`; storing one into an `int` field keeps the low
    32 bits, read as signed. */
module Native {
  import opened Options
  import opened JavaInt
  import opened Raster
  import opened Layout

  type uint32 = x: int | 0 <= x < TWO_32

  /** An `OPJ_UINT32` stored into an `int`. */
  function AsInt(u: uint32): (r: int32)
    ensures u <= MAX_INT ==> r == u
    ensures MAX_INT < u ==> r == u - TWO_32
  {
    Wrap32(u)
  }

  function Max0(x: int): (n: nat)
    ensures x <= 0 ==> n == 0
    ensures 0 <= x ==> n == x
  {
    if x < 0 then 0 else x
  }

  /** The fields of a decoded `opj_image_comp_t` this library reads. */
  datatype Comp = Comp(
    x0: uint32, y0: uint32, w: uint32, h: uint32, dx: uint32, dy: uint32,
    prec: uint32, bpp: uint32, sgnd: uint32, factor: uint32, resnoDecoded: uint32,
    data: seq<int32>)

  /** A decoded component holds its `w * h` samples row by row, as OpenJPEG
      guarantees after a successful decode. */
  predicate WellFormedComp(c: Comp) {
    c.w * c.h <= |c.data|
  }

  // ---------------------------------------------------------------- jopj_copy_data

  /** Bytes per sample for a precision in bits: 1 up to 8 bits, 2 up to 16, else 4,
      i.e. the narrowest of the three widths that holds `prec` bits. */
  function BytesPerSample(prec: int): (n: int)
    ensures n == 1 || n == 2 || n == 4
    ensures n < 4 ==> prec <= 8 * n
    ensures n > 1 ==> 8 * (n / 2) < prec
  {
    if prec <= 8 then 1 else if prec <= 16 then 2 else 4
  }

  /** Component samples cast to `short`. */
  function Narrowed(s: seq<int32>): (r: seq<short>)
    ensures |r| == |s| && forall i | 0 <= i < |s| :: r[i] == Narrow(s[i])
  {
    seq(|s|, i requires 0 <= i < |s| => Narrow(s[i]))
  }

  /** The component is read through `cw = comp->w` and `ch = comp->h`, `int` copies
      of its unsigned sides: a side of 2^31 or more is negative there. */
  lemma CopiedSidesCover(c: Comp)
    requires WellFormedComp(c)
    ensures Covers(Narrowed(c.data), AsInt(c.w), AsInt(c.h))
    ensures 0 < AsInt(c.w) ==> AsInt(c.w) == c.w
    ensures 0 < AsInt(c.h) ==> AsInt(c.h) == c.h
  {
  }

  /** `jopj_copy_data(image, comp_index, x0, y0, dw, dh, data)` on the component
      `c = image->comps[comp_index]`: the `dw x dh` cells it writes, comparing the
      cell's column and row with the `int` copies of the component's sides. The
      position arguments are not used by the copy. */
  function CopyData(c: Comp, dw: nat, dh: nat): (data: seq<short>)
    requires WellFormedComp(c)
    ensures |data| == dw * dh
  {
    CopiedSidesCover(c);
    Place(Narrowed(c.data), AsInt(c.w), AsInt(c.h), dw, dh, 0)
  }

  /** One destination cell: the component's sample where the component has one,
      0 elsewhere; the sample read lies within the component's `w * h` samples. */
  lemma CopyDataCell(c: Comp, dw: nat, dh: nat, i: int, j: int)
    requires WellFormedComp(c) && 0 <= i < dw && 0 <= j < dh
    ensures 0 <= Index(dw, i, j) < dw * dh
    ensures i < AsInt(c.w) && j < AsInt(c.h) ==> 0 <= Index(c.w, i, j) < c.w * c.h
    ensures CopyData(c, dw, dh)[Index(dw, i, j)] ==
      (if i < AsInt(c.w) && j < AsInt(c.h) then Narrow(c.data[Index(c.w, i, j)]) else 0)
  {
    CopiedSidesCover(c);
    PlaceCell(Narrowed(c.data), AsInt(c.w), AsInt(c.h), dw, dh, 0, i, j);
    if i < AsInt(c.w) && j < AsInt(c.h) {
      IndexBounds(c.w, c.h, i, j);
    }
  }

  /** Every destination cell is written: with the component's sample where the
      component has one, with 0 elsewhere. */
  lemma CopyDataCells(c: Comp, dw: nat, dh: nat)
    requires WellFormedComp(c)
    ensures forall i, j | 0 <= i < dw && 0 <= j < dh ::
      && 0 <= Index(dw, i, j) < dw * dh
      && (i < AsInt(c.w) && j < AsInt(c.h) ==> 0 <= Index(c.w, i, j) < c.w * c.h)
      && CopyData(c, dw, dh)[Index(dw, i, j)] ==
         (if i < AsInt(c.w) && j < AsInt(c.h) then Narrow(c.data[Index(c.w, i, j)]) else 0)
  {
    forall i, j | 0 <= i < dw && 0 <= j < dh
      ensures 0 <= Index(dw, i, j) < dw * dh
      ensures i < AsInt(c.w) && j < AsInt(c.h) ==> 0 <= Index(c.w, i, j) < c.w * c.h
      ensures CopyData(c, dw, dh)[Index(dw, i, j)] ==
         (if i < AsInt(c.w) && j < AsInt(c.h) then Narrow(c.data[Index(c.w, i, j)]) else 0)
    {
      CopyDataCell(c, dw, dh, i, j);
    }
  }

  /** A component larger than the destination, with sides that are `int`s, is
      cropped to its top-left corner rather than rejected: no cell is zero-padded. */
  lemma CopyDataCrops(c: Comp, dw: nat, dh: nat)
    requires WellFormedComp(c) && dw <= AsInt(c.w) && dh <= AsInt(c.h)
    ensures forall i, j | 0 <= i < dw && 0 <= j < dh ::
      && 0 <= Index(dw, i, j) < dw * dh
      && 0 <= Index(c.w, i, j) < c.w * c.h
      && CopyData(c, dw, dh)[Index(dw, i, j)] == Narrow(c.data[Index(c.w, i, j)])
  {
    forall i, j | 0 <= i < dw && 0 <= j < dh
      ensures 0 <= Index(dw, i, j) < dw * dh
      ensures 0 <= Index(c.w, i, j) < c.w * c.h
      ensures CopyData(c, dw, dh)[Index(dw, i, j)] == Narrow(c.data[Index(c.w, i, j)])
    {
      CopyDataCell(c, dw, dh, i, j);
    }
  }

  /** A component side of 2^31 or more is negative as an `int`, so no cell passes
      the `i < cw && j < ch` test and the whole destination is zero-filled. */
  lemma CopyDataWideComponentZeroFills(c: Comp, dw: nat, dh: nat)
    requires WellFormedComp(c) && (MAX_INT < c.w || MAX_INT < c.h)
    ensures CopyData(c, dw, dh) == seq(dw * dh, _ => 0 as short)
  {
    CopiedSidesCover(c);
    PlaceEmptySource(Narrowed(c.data), AsInt(c.w), AsInt(c.h), dw, dh, 0 as short);
  }

  // ---------------------------------------------------------------- jopj_read_img_tile_data

  /** The codestream information (`opj_codestream_info_v2_t`) this library reads:
      tile grid origin, tile size, tile counts, the default tile's layer count, and
      the number of resolutions of each component. */
  datatype Codestream = Codestream(tx0: uint32, ty0: uint32, tdx: uint32, tdy: uint32, tw: uint32, th: uint32,
                                   numLayers: uint32, compResolutions: seq<uint32>)

  /** `side >> factor` on an `OPJ_UINT32`, stored into an `int` and used as a loop
      bound (a negative bound runs no iterations): the side reduced by
      `2^factor`, rounded down. The count is taken modulo 32 as the hardware does;
      C leaves larger counts undefined. */
  function ReducedSide(side: uint32, factor: uint32): (n: nat)
    ensures side <= MAX_INT && factor < 32 ==> n * Pow2(factor) <= side < (n + 1) * Pow2(factor)
  {
    var p := Pow2(factor % 32);
    DivBounds(side, p);
    Max0(AsInt(side / p))
  }

  /** The result of a tile read: the return code, the cells written into `data`
      (`None` when nothing is written), and whether the tile reached the decoder;
      or a read through the null `cstr_info` of a handle opened without one. */
  datatype TileRead =
    | TileRead(ret: int, data: Option<seq<short>>, decodeRequested: bool)
    | NullCstrRead

  /** `jopj_read_img_tile_data(img, comp_index, tile_index, data)` on an image with
      `numcomps` components and the handle's codestream information `cstr` (`None`
      for a null `cstr_info`). `decoded` is the component `opj_get_decoded_tile`
      left at `comp_index`, or `None` when that call failed. `checkCstr` chooses
      whether a null `cstr_info` returns 0 before the decode. */
  function ReadImgTileDataWith(numcomps: uint32, cstr: Option<Codestream>, compIndex: int32, decoded: Option<Comp>,
                               checkCstr: bool): TileRead
    requires decoded.Some? ==> WellFormedComp(decoded.value)
  {
    if compIndex < 0 || compIndex >= AsInt(numcomps) then TileRead(0, None, false)
    else if checkCstr && cstr.None? then TileRead(0, None, false)
    else match decoded
      case None => TileRead(0, None, true)
      case Some(c) =>
        match cstr
        case None => NullCstrRead
        case Some(cs) =>
          TileRead(1, Some(CopyData(c, ReducedSide(cs.tdx, c.factor), ReducedSide(cs.tdy, c.factor))), true)
  }

  /** The tile read as written: the tile size is read through `cstr_info` without a
      null check, after a successful decode. */
  function ReadImgTileDataAsWritten(numcomps: uint32, cstr: Option<Codestream>, compIndex: int32, decoded: Option<Comp>): (r: TileRead)
    requires decoded.Some? ==> WellFormedComp(decoded.value)
    ensures r.NullCstrRead? <==> 0 <= compIndex < AsInt(numcomps) && decoded.Some? && cstr.None?
    ensures cstr.Some? ==> r == ReadImgTileData(numcomps, cstr, compIndex, decoded)
  {
    ReadImgTileDataWith(numcomps, cstr, compIndex, decoded, false)
  }

  /** The tile read returning 0 on a null `cstr_info`. It never reads through a null
      pointer; an invalid index or a missing `cstr_info` returns 0 before the decoder
      is asked for anything; otherwise it returns 1 exactly when the decode succeeds,
      and writes the decoded tile as the codestream's tile size reduced by the
      component's factor. */
  function ReadImgTileData(numcomps: uint32, cstr: Option<Codestream>, compIndex: int32, decoded: Option<Comp>): (r: TileRead)
    requires decoded.Some? ==> WellFormedComp(decoded.value)
    ensures r.TileRead?
    ensures r.ret == 0 || r.ret == 1
    ensures r.ret == 1 <==> r.data.Some?
    ensures !(0 <= compIndex < AsInt(numcomps)) || cstr.None? ==> r == TileRead(0, None, false)
    ensures 0 <= compIndex < AsInt(numcomps) && cstr.Some? ==> r.decodeRequested && (r.ret == 1 <==> decoded.Some?)
    ensures r.data.Some? ==>
      var f := decoded.value.factor;
      r.data.value == CopyData(decoded.value, ReducedSide(cstr.value.tdx, f), ReducedSide(cstr.value.tdy, f))
  {
    ReadImgTileDataWith(numcomps, cstr, compIndex, decoded, true)
  }

  /** `jopj_open_img` stores the result of `opj_get_cstr_info` without
      checking it, so a handle can be live without codestream information. A tile
      read on such a handle that decodes its tile then reads through the null
      pointer, as written; with the check it returns 0. */
  lemma TileReadWithoutCstr(s: OpenSteps, numcomps: uint32, c: Comp)
    requires AllUpToFactor(s) && !s.cstr
    requires WellFormedComp(c) && 0 < numcomps <= MAX_INT
    ensures OpenImg(s).Live? && CstrRes !in OpenImg(s).held
    ensures ReadImgTileDataAsWritten(numcomps, None, 0, Some(c)).NullCstrRead?
    ensures ReadImgTileData(numcomps, None, 0, Some(c)) == TileRead(0, None, false)
  {
  }

  /** Reducing a 4096 side by factor `level` gives the tile side `Jp2Image` computes
      with `tileWidth >> level` for the fixed layout. */
  lemma ReducedTileSide(level: int)
    requires 0 <= level < 6
    ensures ReducedSide(4096, level) == LevelSides[level] == LevelTileWidth(ExeLayout, level) == LevelTileHeight(ExeLayout, level)
  {
    ExeLayoutValid();
    assert LevelTileWidth(ExeLayout, level) == 4096 / Pow2(level % 32);
  }

  /** On the 4096 x 4096 tiles of the Sentinel-2 test image, a tile decoded at
      reduction factor `level` is written with the tile side `Jp2Image` expects at
      that level. */
  lemma TileReadAtLevel(c: Comp, cs: Codestream, level: int)
    requires WellFormedComp(c) && 0 <= level < 6 && c.factor == level
    requires cs.tdx == 4096 && cs.tdy == 4096
    ensures var r := ReadImgTileData(1, Some(cs), 0, Some(c));
      r.ret == 1 && r.data.Some? &&
      |r.data.value| == LevelTileWidth(ExeLayout, level) * LevelTileHeight(ExeLayout, level)
  {
    ReducedTileSide(level);
    var side := LevelSides[level];
    assert ReadImgTileData(1, Some(cs), 0, Some(c)).data.value == CopyData(c, side, side);
  }

  // ---------------------------------------------------------------- jopj_get_img_info

  /** The fields of `opj_image_t` this library reads. `comps` is `None` for a null
      component array. */
  datatype OpjImage = OpjImage(x0: uint32, y0: uint32, x1: uint32, y1: uint32, numcomps: uint32, comps: Option<seq<Comp>>)

  predicate WellFormedImage(image: OpjImage) {
    image.comps.Some? ==> |image.comps.value| >= 1
  }

  /** `jopj_ImgInfo`. */
  datatype ImgInfo = ImgInfo(
    width: int32, height: int32, numComponents: int32, numResolutionsMax: int32, numLayers: int32,
    numTiles: int32, numXTiles: int32, numYTiles: int32, tileXOffset: int32, tileYOffset: int32,
    tileWidth: int32, tileHeight: int32,
    prec: int32, factor: int32, resnoDecoded: int32, sgnd: int32, bpp: int32,
    x0: int32, y0: int32, dx: int32, dy: int32, w: int32, h: int32)

  /** A record fresh from `calloc`. */
  const ZeroInfo := ImgInfo(0, 0, 0, 0, 0, 0, 0, 0, 0, 0, 0, 0, 0, 0, 0, 0, 0, 0, 0, 0, 0, 0, 0)

  /** The largest of the values, or 0 when that is larger. */
  function MaxFromZero(s: seq<int32>): (m: int32)
    ensures 0 <= m
    ensures forall i | 0 <= i < |s| :: s[i] <= m
    ensures m == 0 || exists i | 0 <= i < |s| :: s[i] == m
  {
    if |s| == 0 then 0
    else
      var m := MaxFromZero(s[..|s| - 1]);
      if m < s[|s| - 1] then s[|s| - 1] else m
  }

  /** The resolution counts as the loop reads them into `int res`. */
  function ResolutionCounts(cs: Codestream, numcomps: uint32): (r: seq<int32>)
    requires numcomps <= |cs.compResolutions|
    ensures |r| == Max0(AsInt(numcomps))
    ensures forall i | 0 <= i < |r| :: r[i] == AsInt(cs.compResolutions[i])
  {
    var n := Max0(AsInt(numcomps));
    seq(n, i requires 0 <= i < n => AsInt(cs.compResolutions[i]))
  }

  /** The loop of `jopj_get_img_info` over the components: `num_resolutions_max`
      starts at 0 and takes every larger count it meets. */
  method MaxResolutions(res: seq<int32>) returns (m: int32)
    ensures m == MaxFromZero(res)
  {
    m := 0;
    var i := 0;
    while i < |res|
      invariant 0 <= i <= |res|
      invariant m == MaxFromZero(res[..i])
    {
      assert res[..i + 1][..i] == res[..i];
      if m < res[i] {
        m := res[i];
      }
      i := i + 1;
    }
    assert res[..i] == res;
  }

  /** The codestream fields of the record, set only when the codestream information
      is present. */
  function WithCodestream(info: ImgInfo, cs: Codestream, numcomps: uint32): ImgInfo
    requires numcomps <= |cs.compResolutions|
  {
    info.(
      numTiles := AsInt((cs.tw * cs.th) % TWO_32),
      numXTiles := AsInt(cs.tw), numYTiles := AsInt(cs.th),
      tileXOffset := AsInt(cs.tx0), tileYOffset := AsInt(cs.ty0),
      tileWidth := AsInt(cs.tdx), tileHeight := AsInt(cs.tdy),
      numLayers := AsInt(cs.numLayers),
      numResolutionsMax := MaxFromZero(ResolutionCounts(cs, numcomps)))
  }

  /** The first component's fields of the record, set only when the component array
      is present. */
  function WithFirstComp(info: ImgInfo, c: Comp): ImgInfo {
    info.(
      factor := AsInt(c.factor), prec := AsInt(c.prec), resnoDecoded := AsInt(c.resnoDecoded),
      sgnd := AsInt(c.sgnd), bpp := AsInt(c.bpp), x0 := AsInt(c.x0), y0 := AsInt(c.y0),
      dx := AsInt(c.dx), dy := AsInt(c.dy), w := AsInt(c.w), h := AsInt(c.h))
  }

  /** `jopj_get_img_info(img)` on an image and its codestream information (`None`
      for a null `cstr_info`); the result is `None` when `calloc` fails. The sizes
      are unsigned differences and the tile count an unsigned product, each kept
      modulo 2^32. */
  function GetImgInfo(image: OpjImage, cstr: Option<Codestream>, allocOk: bool): (info: Option<ImgInfo>)
    requires WellFormedImage(image)
    requires cstr.Some? ==> image.numcomps <= |cstr.value.compResolutions|
    ensures info.None? <==> !allocOk
  {
    if !allocOk then None
    else
      var base := ZeroInfo.(
        width := AsInt((image.x1 - image.x0) % TWO_32),
        height := AsInt((image.y1 - image.y0) % TWO_32),
        numComponents := AsInt(image.numcomps));
      var withTiles := if cstr.Some? then WithCodestream(base, cstr.value, image.numcomps) else base;
      Some(if image.comps.Some? then WithFirstComp(withTiles, image.comps.value[0]) else withTiles)
  }

  /** An unsigned difference `a - b` stored into an `int`: the exact difference
      when it is between 0 and `MAX_INT`, and equal to it modulo 2^32 always. */
  lemma UnsignedDifference(a: uint32, b: uint32)
    ensures (AsInt((a - b) % TWO_32) - (a - b)) % TWO_32 == 0
    ensures b <= a <= b + MAX_INT ==> AsInt((a - b) % TWO_32) == a - b
  {
    var d := (a - b) % TWO_32;
    if b <= a {
      assert d == a - b;
    } else {
      assert d == a - b + TWO_32;
    }
  }

  /** Width and height are the extents `x1 - x0` and `y1 - y0` when those fit an
      `int`, and agree with them modulo 2^32 otherwise. */
  lemma InfoExtents(image: OpjImage, cstr: Option<Codestream>)
    requires WellFormedImage(image)
    requires cstr.Some? ==> image.numcomps <= |cstr.value.compResolutions|
    ensures var info := GetImgInfo(image, cstr, true).value;
      && (info.width - (image.x1 - image.x0)) % TWO_32 == 0
      && (info.height - (image.y1 - image.y0)) % TWO_32 == 0
      && (image.x0 <= image.x1 <= image.x0 + MAX_INT ==> info.width == image.x1 - image.x0)
      && (image.y0 <= image.y1 <= image.y0 + MAX_INT ==> info.height == image.y1 - image.y0)
  {
    UnsignedDifference(image.x1, image.x0);
    UnsignedDifference(image.y1, image.y0);
  }

  /** The tile count is the product of the counts along the axes whenever that
      product fits an `int`. */
  lemma InfoTileCount(image: OpjImage, cs: Codestream)
    requires WellFormedImage(image) && image.numcomps <= |cs.compResolutions|
    requires cs.tw * cs.th <= MAX_INT
    ensures var info := GetImgInfo(image, Some(cs), true).value;
      info.numTiles == cs.tw * cs.th == info.numXTiles * info.numYTiles
  {
    var info := GetImgInfo(image, Some(cs), true).value;
    assert info.numTiles == AsInt((cs.tw * cs.th) % TWO_32);
    assert info.numXTiles == AsInt(cs.tw) && info.numYTiles == AsInt(cs.th);
    MulNonneg(cs.tw, cs.th);
    assert (cs.tw * cs.th) % TWO_32 == cs.tw * cs.th;
    if cs.th == 0 || cs.tw == 0 {
      assert info.numXTiles * info.numYTiles == 0;
    } else {
      MulMono(1, cs.th, cs.tw);
      MulMono(1, cs.tw, cs.th);
      assert info.numXTiles == cs.tw && info.numYTiles == cs.th;
    }
  }

  /** The largest resolution count over the components is `num_resolutions_max`:
      no component has more, and it is 0 or some component's count. Without
      codestream information it stays 0. */
  lemma InfoResolutionsMax(image: OpjImage, cstr: Option<Codestream>)
    requires WellFormedImage(image)
    requires cstr.Some? ==> image.numcomps <= |cstr.value.compResolutions|
    ensures var info := GetImgInfo(image, cstr, true).value;
      && 0 <= info.numResolutionsMax
      && (cstr.None? ==> info.numResolutionsMax == 0)
      && (cstr.Some? ==>
            && (forall i | 0 <= i < AsInt(image.numcomps) :: AsInt(cstr.value.compResolutions[i]) <= info.numResolutionsMax)
            && (info.numResolutionsMax == 0 ||
                exists i | 0 <= i < AsInt(image.numcomps) :: AsInt(cstr.value.compResolutions[i]) == info.numResolutionsMax))
  {
    if cstr.Some? {
      var r := ResolutionCounts(cstr.value, image.numcomps);
      assert GetImgInfo(image, cstr, true).value.numResolutionsMax == MaxFromZero(r);
    }
  }

  /** Fields whose source pointer is null keep the zero `calloc` gave them. */
  lemma InfoNullSourcesZero(image: OpjImage, cstr: Option<Codestream>)
    requires WellFormedImage(image)
    requires cstr.Some? ==> image.numcomps <= |cstr.value.compResolutions|
    ensures var info := GetImgInfo(image, cstr, true).value;
      && (cstr.None? ==>
            info.(width := 0, height := 0, numComponents := 0,
                  prec := 0, factor := 0, resnoDecoded := 0, sgnd := 0, bpp := 0,
                  x0 := 0, y0 := 0, dx := 0, dy := 0, w := 0, h := 0) == ZeroInfo)
      && (image.comps.None? ==>
            info.(width := 0, height := 0, numComponents := 0,
                  numResolutionsMax := 0, numLayers := 0, numTiles := 0, numXTiles := 0, numYTiles := 0,
                  tileXOffset := 0, tileYOffset := 0, tileWidth := 0, tileHeight := 0) == ZeroInfo)
  {
  }

  /** `Jp2LibImage._getLayout`: the layout built from the info record, field by
      field; a null record is an `IOException` (`None`). */
  function LibLayout(info: Option<ImgInfo>): (l: Option<Layout>)
    ensures l.None? <==> info.None?
  {
    match info
      case None => None
      case Some(i) => Some(Layout(i.numResolutionsMax, i.numComponents, i.width, i.height,
                                  i.numXTiles, i.numYTiles, i.tileXOffset, i.tileYOffset,
                                  i.tileWidth, i.tileHeight))
  }

  /** The library reading the Sentinel-2 test image (10960 x 10960, one component
      with six resolutions, 3 x 3 tiles of 4096) reports exactly the layout that
      `Jp2ExeImage` assumes for every file. */
  lemma LibLayoutOfTestImage(c: Comp)
    ensures var image := OpjImage(0, 0, 10960, 10960, 1, Some([c]));
            var cs := Codestream(0, 0, 4096, 4096, 3, 3, 1, [6]);
            LibLayout(GetImgInfo(image, Some(cs), true)) == Some(ExeLayout)
  {
    var cs := Codestream(0, 0, 4096, 4096, 3, 3, 1, [6]);
    assert ResolutionCounts(cs, 1) == [6];
    assert MaxFromZero([6]) == 6 by {
      assert [6][..0] == [];
    }
  }

  // ---------------------------------------------------------------- jopj_dispose_img

  /** The handles a `jopj_Img` may own. */
  datatype Resource = StreamRes | FileRes | CstrRes | CodecRes | ImageRes

  /** One release: a handle destroyed (stream destroyed, file closed, codestream
      information, codec or image destroyed), or the struct itself freed. */
  datatype Release = Destroy(res: Resource) | FreeStruct

  /** The order in which `jopj_dispose_img` looks at the handle fields. */
  const DisposalOrder: seq<Resource> := [StreamRes, FileRes, CstrRes, CodecRes, ImageRes]

  predicate Distinct<T(==)>(s: seq<T>) {
    forall i, j | 0 <= i < j < |s| :: s[i] != s[j]
  }

  /** Releases for the held handles, in the given order, each non-null one once. */
  function Releases(order: seq<Resource>, held: set<Resource>): (out: seq<Release>)
    ensures forall r :: Destroy(r) in out <==> r in order && r in held
    ensures FreeStruct !in out
    ensures Distinct(order) ==> Distinct(out)
  {
    if |order| == 0 then []
    else
      var rest := Releases(order[1..], held);
      if order[0] in held then
        HeadNotInTail(order);
        [Destroy(order[0])] + rest
      else rest
  }

  /** In a sequence without repetitions the first element does not recur. */
  lemma HeadNotInTail<T>(s: seq<T>)
    requires |s| > 0
    ensures Distinct(s) ==> s[0] !in s[1..]
  {
    if Distinct(s) {
      forall k | 0 <= k < |s| - 1
        ensures s[1..][k] != s[0]
      {
        assert s[1..][k] == s[k + 1];
      }
    }
  }

  /** Every handle field is looked at. */
  lemma DisposalOrderComplete()
    ensures forall r: Resource :: r in DisposalOrder
  {
    forall r: Resource
      ensures r in DisposalOrder
    {
      match r
        case StreamRes => assert DisposalOrder[0] == r;
        case FileRes => assert DisposalOrder[1] == r;
        case CstrRes => assert DisposalOrder[2] == r;
        case CodecRes => assert DisposalOrder[3] == r;
        case ImageRes => assert DisposalOrder[4] == r;
    }
  }

  /** With both a stream and its file held, the stream is destroyed first and the
      file closed second. */
  lemma StreamBeforeFile(held: set<Resource>)
    ensures StreamRes in held && FileRes in held ==>
      |Releases(DisposalOrder, held)| >= 2 &&
      Releases(DisposalOrder, held)[..2] == [Destroy(StreamRes), Destroy(FileRes)]
  {
    if StreamRes in held && FileRes in held {
      var tail := DisposalOrder[1..];
      assert DisposalOrder[0] == StreamRes && tail[0] == FileRes;
      var rest := Releases(tail, held);
      assert Releases(DisposalOrder, held) == [Destroy(StreamRes)] + rest;
      assert rest == [Destroy(FileRes)] + Releases(tail[1..], held);
    }
  }

  /** `jopj_dispose_img(img)`: a null pointer releases nothing; otherwise every
      non-null handle is released exactly once, the stream before the file it
      reads, and the struct is freed last. */
  function DisposeImg(img: Option<set<Resource>>): (out: seq<Release>)
    ensures img.None? ==> out == []
    ensures img.Some? ==> |out| >= 1 && out[|out| - 1] == FreeStruct && FreeStruct !in out[..|out| - 1]
    ensures img.Some? ==> forall r :: Destroy(r) in out <==> r in img.value
    ensures Distinct(out)
    ensures img.Some? && StreamRes in img.value && FileRes in img.value ==>
      out[0] == Destroy(StreamRes) && out[1] == Destroy(FileRes)
  {
    match img
      case None => []
      case Some(held) =>
        var destroyed := Releases(DisposalOrder, held);
        DisposalOrderComplete();
        StreamBeforeFile(held);
        var out := destroyed + [FreeStruct];
        assert out[..|out| - 1] == destroyed;
        out
  }

  // ---------------------------------------------------------------- jopj_open_img

  /** Which of the steps of `jopj_open_img` succeed: `calloc`, `fopen`, stream
      creation, codec creation, decoder setup, header read, setting the reduction
      factor, and fetching the codestream information. */
  datatype OpenSteps = OpenSteps(alloc: bool, fopen: bool, stream: bool, codec: bool,
                                 setup: bool, header: bool, factor: bool, cstr: bool)

  /** What `jopj_open_img` returns: NULL after the given releases, a live handle
      owning the given resources, or a pointer to a struct already freed by the
      given releases. */
  datatype Opened = Null(released: seq<Release>) | Live(held: set<Resource>) | Dangling(released: seq<Release>)

  /** Whether a run acquires a resource: each acquisition needs every earlier step
      to have succeeded. */
  predicate Acquires(s: OpenSteps, res: Resource) {
    var file := s.alloc && s.fopen;
    match res
      case FileRes => file
      case StreamRes => file && s.stream
      case CodecRes => file && s.stream && s.codec
      case ImageRes => file && s.stream && s.codec && s.setup && s.header
      case CstrRes => file && s.stream && s.codec && s.setup && s.header && s.factor && s.cstr
  }

  predicate AllUpToFactor(s: OpenSteps) {
    s.alloc && s.fopen && s.stream && s.codec && s.setup && s.header && s.factor
  }

  /** `jopj_open_img`, with `stopOnFactorFailure` choosing whether a failed
      `opj_set_decoded_resolution_factor` returns after disposing. */
  function OpenImgWith(s: OpenSteps, stopOnFactorFailure: bool): Opened {
    var handle := {FileRes, StreamRes, CodecRes};
    if !s.alloc then Null([])
    else if !s.fopen then Null(DisposeImg(Some({})))
    else if !s.stream then Null(DisposeImg(Some({FileRes})))
    else if !s.codec then Null(DisposeImg(Some({FileRes, StreamRes})))
    else if !s.setup || !s.header then Null(DisposeImg(Some(handle)))
    else if !s.factor then
      var released := DisposeImg(Some(handle + {ImageRes}));
      if stopOnFactorFailure then Null(released) else Dangling(released)
    else Live(handle + {ImageRes} + (if s.cstr then {CstrRes} else {}))
  }

  /** `jopj_open_img` as written: after a failed `opj_set_decoded_resolution_factor`
      it disposes the struct and carries on, storing into and returning the freed
      struct. */
  function OpenImgAsWritten(s: OpenSteps): (r: Opened)
    ensures s.factor ==> r == OpenImg(s)
  {
    OpenImgWith(s, false)
  }

  /** A run where only the reduction factor is refused: the pointer returned as
      written is one whose struct has already been freed. */
  lemma OpenFactorFailureDangles(s: OpenSteps)
    requires s.alloc && s.fopen && s.stream && s.codec && s.setup && s.header && !s.factor
    ensures OpenImgAsWritten(s).Dangling? && FreeStruct in OpenImgAsWritten(s).released
    ensures OpenImg(s).Null?
  {
  }

  /** Disposing a struct that holds exactly what a run acquired releases exactly
      that. */
  lemma ReleasesExactly(s: OpenSteps, held: set<Resource>)
    requires forall res :: res in held <==> Acquires(s, res)
    ensures forall res :: Destroy(res) in DisposeImg(Some(held)) <==> Acquires(s, res)
  {
  }

  /** At each failing step the struct holds exactly what the run has acquired. */
  lemma OpenImgReleasesAcquired(s: OpenSteps)
    ensures OpenImgWith(s, true).Null? ==>
      forall res :: Destroy(res) in OpenImgWith(s, true).released <==> Acquires(s, res)
    ensures OpenImgWith(s, true).Live? ==>
      forall res :: res in OpenImgWith(s, true).held <==> Acquires(s, res)
  {
    if !s.alloc {
    } else if !s.fopen {
      ReleasesExactly(s, {});
    } else if !s.stream {
      ReleasesExactly(s, {FileRes});
    } else if !s.codec {
      ReleasesExactly(s, {FileRes, StreamRes});
    } else if !s.setup || !s.header {
      ReleasesExactly(s, {FileRes, StreamRes, CodecRes});
    } else if !s.factor {
      ReleasesExactly(s, {FileRes, StreamRes, CodecRes, ImageRes});
    }
  }

  /** `jopj_open_img` returning NULL after that dispose. It never returns a freed
      struct; it returns a live handle exactly when every step up to the reduction
      factor succeeds, owning what the run acquired; and on NULL every resource the
      run acquired is released, and the struct is freed exactly when it was
      allocated. */
  function OpenImg(s: OpenSteps): (r: Opened)
    ensures !r.Dangling?
    ensures r.Live? <==> AllUpToFactor(s)
    ensures r.Live? ==> forall res :: res in r.held <==> Acquires(s, res)
    ensures r.Null? ==> forall res :: Destroy(res) in r.released <==> Acquires(s, res)
    ensures r.Null? ==> (FreeStruct in r.released <==> s.alloc)
  {
    OpenImgReleasesAcquired(s);
    OpenImgWith(s, true)
  }

  // ---------------------------------------------------------------- jopj_read_img_region_data

  /** The inclusive corners handed to `opj_set_decode_area`. */
  datatype Area = Area(x0: int, y0: int, x1: int, y1: int)

  /** Which decoder steps of a region read succeed after the open. */
  datatype RegionSteps = RegionSteps(open: OpenSteps, area: bool, decode: bool)

  /** A region read: the return code, the cells written, the area requested from the
      decoder (`None` when the read stops before that), and what is still held
      when the function returns. */
  datatype RegionRead = RegionRead(ret: int, data: Option<seq<short>>, area: Option<Area>,
                                   leaked: set<Resource>, structLeaked: bool)

  /** `jopj_read_img_region_data(filepath, resolution, comp_index, x0, y0, w, h, data)`
      over the open image's `numcomps` and the component decoded at `comp_index`;
      `disposeOnBadIndex` chooses whether an invalid index disposes the handle. */
  function ReadImgRegionDataWith(s: RegionSteps, numcomps: uint32, decoded: Comp, compIndex: int32,
                                 x0: int32, y0: int32, w: int32, h: int32, disposeOnBadIndex: bool): RegionRead
    requires WellFormedComp(decoded)
  {
    var handle := OpenImg(s.open);
    if !handle.Live? then RegionRead(0, None, None, {}, false)
    else
      var area := Area(x0, y0, x0 + w - 1, y0 + h - 1);
      if compIndex < 0 || compIndex >= AsInt(numcomps) then
        if disposeOnBadIndex then RegionRead(0, None, None, {}, false)
        else RegionRead(0, None, None, handle.held, true)
      else if !s.area || !s.decode then RegionRead(0, None, Some(area), {}, false)
      else RegionRead(1, Some(CopyData(decoded, Max0(w), Max0(h))), Some(area), {}, false)
  }

  /** The region read as written: an invalid component index returns 0 without
      disposing the open handle. It opens with the corrected `OpenImg`, so the only
      departure from `ReadImgRegionData` is that missing dispose; the open as
      written is `OpenImgAsWritten`. */
  function ReadImgRegionDataAsWritten(s: RegionSteps, numcomps: uint32, decoded: Comp, compIndex: int32,
                                      x0: int32, y0: int32, w: int32, h: int32): (r: RegionRead)
    requires WellFormedComp(decoded)
    ensures 0 <= compIndex < AsInt(numcomps) ==>
      r == ReadImgRegionData(s, numcomps, decoded, compIndex, x0, y0, w, h)
  {
    ReadImgRegionDataWith(s, numcomps, decoded, compIndex, x0, y0, w, h, false)
  }

  /** An invalid component index after a successful open leaves every handle and
      the struct itself allocated, as written. */
  lemma RegionLeaksOnBadIndex(s: RegionSteps, numcomps: uint32, decoded: Comp, x0: int32, y0: int32, w: int32, h: int32)
    requires WellFormedComp(decoded) && AllUpToFactor(s.open) && numcomps <= MAX_INT
    ensures var r := ReadImgRegionDataAsWritten(s, numcomps, decoded, numcomps, x0, y0, w, h);
      && r.ret == 0 && r.structLeaked
      && (forall res :: res in r.leaked <==> Acquires(s.open, res))
      && {FileRes, StreamRes, CodecRes, ImageRes} <= r.leaked
  {
  }

  /** The region read disposing on an invalid index. Whatever happens nothing stays
      held; an invalid index returns 0 before any decode; the area requested has
      inclusive corners spanning exactly `w` columns and `h` rows from `(x0, y0)`;
      and a successful read writes `w x h` cells copied from the component. */
  function ReadImgRegionData(s: RegionSteps, numcomps: uint32, decoded: Comp, compIndex: int32,
                             x0: int32, y0: int32, w: int32, h: int32): (r: RegionRead)
    requires WellFormedComp(decoded)
    ensures r.leaked == {} && !r.structLeaked
    ensures r.ret == 1 <==> r.data.Some?
    ensures r.ret == 1 <==> AllUpToFactor(s.open) && 0 <= compIndex < AsInt(numcomps) && s.area && s.decode
    ensures !(0 <= compIndex < AsInt(numcomps)) ==> r.ret == 0 && r.area.None?
    ensures r.area.Some? ==> var a := r.area.value;
      a.x0 == x0 && a.y0 == y0 && a.x1 - a.x0 + 1 == w && a.y1 - a.y0 + 1 == h
    ensures r.data.Some? ==> r.data.value == CopyData(decoded, Max0(w), Max0(h))
  {
    ReadImgRegionDataWith(s, numcomps, decoded, compIndex, x0, y0, w, h, true)
  }
}

=== FILE: op_image.dfy ===
/** `Sentinel2ProductReader2.Jp2ExeOpImage.computeRect`: one rendered tile of one
    band at one level. The request's pixel origin picks a JPEG 2000 tile, whose
    component-0 artifact is decoded on a miss and parsed into the tile buffer.
    Unlike `Jp2ExeImage`, a decoder that cannot be started and an artifact that
    cannot be parsed are not reported: the tile is zero-filled, or kept as the
    buffer held it (the model treats a failed parse as writing nothing). */
module OpImage {
  import opened Options
  import opened JavaInt
  import opened Layout
  import opened Pgx
  import opened Artifacts
  import opened ExeImage
  import opened Raster

  /** Which limit the parser checks declared sizes against. */
  datatype LimitCheck =
    | AgainstTileSize   // the tile's own width and height, as `Jp2ExeImage` does
    | AgainstTileCoords // the JPEG 2000 tile coordinates, as this reader's parser is written

  /** A request the level model can make: a level in `[0, 6)` and a tile origin inside
      the 3 x 3 grid of JPEG 2000 tiles at that level. */
  predicate ValidRequest(level: int, x: int, y: int) {
    0 <= level < 6 && 0 <= x < 3 * LevelSides[level] && 0 <= y < 3 * LevelSides[level]
  }

  /** The JPEG 2000 tile a request falls in: `destRect.x / jp2TileDim.width` and the
      same for `y`. */
  function Jp2Tile(level: int, x: int, y: int): (t: (int32, int32))
    requires ValidRequest(level, x, y)
    ensures InGrid(3, 3, t.0, t.1)
    ensures t.0 * LevelSides[level] <= x < (t.0 + 1) * LevelSides[level]
    ensures t.1 * LevelSides[level] <= y < (t.1 + 1) * LevelSides[level]
  {
    S2TileDimAt(level);
    var jp2 := Jp2TileDim(S2Geometry, level);
    var tx := Jp2TileOf(x, jp2.width);
    var ty := Jp2TileOf(y, jp2.height);
    TileBelowThree(x, jp2.width, tx);
    TileBelowThree(y, jp2.height, ty);
    (tx, ty)
  }

  lemma TileBelowThree(x: int, w: int, c: int)
    requires 0 < w && x < 3 * w && c * w <= x
    ensures c < 3
  {
    if 3 <= c {
      MulMono(3, c, w);
    }
  }

  /** What the request did: the cache directory afterwards, the tile buffer, the
      runtime exception that escaped, if any, and the decoder run started, if any. */
  datatype Computed = Computed(files: Files, tile: seq<short>, raised: Option<Failure>, decoded: Option<Invocation>)

  /** The catch around the parse: checked exceptions are dropped, and the buffer is
      modelled as unchanged by them; runtime exceptions escape. */
  function Deliver(o: Outcome, buf: seq<short>): (r: (seq<short>, Option<Failure>))
    ensures o.Filled? ==> r == (o.tile, None)
    ensures o.Raised? && o.failure.IsIOException() ==> r == (buf, None)
    ensures o.Raised? && !o.failure.IsIOException() ==> r == (buf, Some(o.failure))
  {
    match o
    case Filled(t) => (t, None)
    case Raised(f) => if f.IsIOException() then (buf, None) else (buf, Some(f))
  }

  /** The cache directory after a decoder run on a miss: a run that cannot be started
      makes the reader delete the artifact name. Only that name can change. */
  function Fetched(files: Files, name: string, launch: Launch): (files': Files)
    ensures forall n | n != name :: (n in files' <==> n in files) && (n in files ==> files'[n] == files[n])
    ensures launch.NotStarted? ==> name !in files'
  {
    match launch
    case NotStarted => files - {name}
    case Exited(_, _) => AfterRun(files, name, launch)
  }

  /** Parsing the artifact into the tile buffer of the level, behind the catch. */
  function Load(check: LimitCheck, file: seq<byte>, level: int, tx: int32, ty: int32, buf: seq<short>): (r: (seq<short>, Option<Failure>))
    requires 0 <= level < 6 && InGrid(3, 3, tx, ty)
    ensures |r.0| == |buf|
    ensures r.1.Some? ==> !r.1.value.IsIOException() && r.0 == buf
  {
    S2TileDimAt(level);
    var op := TileDim(S2Geometry, level);
    var o := match check
      case AgainstTileSize => ParseTile(file, op.width, op.height, buf)
      case AgainstTileCoords => ParseTileCheckingCoords(file, op.width, op.height, tx, ty, buf);
    Deliver(o, buf)
  }

  /** The number of samples in a rendered tile of the level. */
  function TileLength(level: int): int
    requires 0 <= level < 6
  {
    TileDim(S2Geometry, level).width * TileDim(S2Geometry, level).height
  }

  function ArtifactFor(source: string, level: int32, x: int32, y: int32): string
    requires ValidRequest(level, x, y)
  {
    ArtifactName(source, level, Jp2Tile(level, x, y).0, Jp2Tile(level, x, y).1)
  }

  /** `computeRect` for a band whose source file is `source` (path `sourcePath`). */
  function ComputeRectWith(check: LimitCheck, source: string, sourcePath: string, files: Files, launch: Launch,
                           level: int32, x: int32, y: int32, buf: seq<short>): (c: Computed)
    requires ValidRequest(level, x, y)
    ensures ArtifactFor(source, level, x, y) in files ==> c.decoded == None && c.files == files
    ensures ArtifactFor(source, level, x, y) !in files ==>
      c.decoded == Some(Jp2DecoderCall(sourcePath, source, level, Jp2Tile(level, x, y)))
    ensures ArtifactFor(source, level, x, y) !in c.files ==> c.tile == Zeros(|buf|) && c.raised == None
    ensures ArtifactFor(source, level, x, y) in c.files ==>
      (c.tile, c.raised) == Load(check, c.files[ArtifactFor(source, level, x, y)], level,
                                 Jp2Tile(level, x, y).0, Jp2Tile(level, x, y).1, buf)
    ensures ArtifactFor(source, level, x, y) !in files && launch.NotStarted? ==>
      c.files == files && c.tile == Zeros(|buf|)
    ensures forall n | n != ArtifactFor(source, level, x, y) :: (n in c.files <==> n in files) && (n in files ==> c.files[n] == files[n])
    ensures |c.tile| == |buf|
    ensures c.raised.Some? ==> !c.raised.value.IsIOException() && c.tile == buf
  {
    var name := ArtifactFor(source, level, x, y);
    var files' := if name in files then files else Fetched(files, name, launch);
    var decoded := if name in files then None else Some(Jp2DecoderCall(sourcePath, source, level, Jp2Tile(level, x, y)));
    if name !in files' then Computed(files', Zeros(|buf|), None, decoded)
    else
      var (tile, raised) := Load(check, files'[name], level, Jp2Tile(level, x, y).0, Jp2Tile(level, x, y).1, buf);
      Computed(files', tile, raised, decoded)
  }

  /** The decoder run `decompressTile` starts for a JPEG 2000 tile, with the
      row-major index. */
  function Jp2DecoderCall(sourcePath: string, source: string, level: int32, t: (int32, int32)): Invocation {
    Invocation(sourcePath, OutputName(source, level, t.0, t.1), level, TileIndex(3, t.0, t.1))
  }

  /** `computeRect` with the declared size checked against the tile size. */
  function ComputeRect(source: string, sourcePath: string, files: Files, launch: Launch,
                       level: int32, x: int32, y: int32, buf: seq<short>): Computed
    requires ValidRequest(level, x, y)
  {
    ComputeRectWith(AgainstTileSize, source, sourcePath, files, launch, level, x, y, buf)
  }

  /** `computeRect` as written. */
  function ComputeRectAsWritten(source: string, sourcePath: string, files: Files, launch: Launch,
                                level: int32, x: int32, y: int32, buf: seq<short>): Computed
    requires ValidRequest(level, x, y)
  {
    ComputeRectWith(AgainstTileCoords, source, sourcePath, files, launch, level, x, y, buf)
  }

  // ---------------------------------------------------------------- properties

  /** Two requests at a level share an artifact exactly when they fall in the same
      JPEG 2000 tile. */
  lemma SharedArtifactIffSameJp2Tile(source: string, level: int32, x1: int32, y1: int32, x2: int32, y2: int32)
    requires ValidRequest(level, x1, y1) && ValidRequest(level, x2, y2)
    ensures ArtifactFor(source, level, x1, y1) == ArtifactFor(source, level, x2, y2)
            <==> Jp2Tile(level, x1, y1) == Jp2Tile(level, x2, y2)
  {
    var (a1, b1) := Jp2Tile(level, x1, y1);
    var (a2, b2) := Jp2Tile(level, x2, y2);
    if ArtifactFor(source, level, x1, y1) == ArtifactFor(source, level, x2, y2) {
      ArtifactNameInjective(source, level, a1, b1, level, a2, b2);
    }
  }

  /** The decoder index of a request is a valid index of the 3 x 3 grid, the same the
      `numYTiles`-based index of `Jp2ExeImage` gives there. */
  lemma RequestIndexInGrid(level: int32, x: int32, y: int32)
    requires ValidRequest(level, x, y)
    ensures var (tx, ty) := Jp2Tile(level, x, y);
      && 0 <= TileIndex(3, tx, ty) < 9
      && TileIndex(3, tx, ty) == ExeTileIndexAsWritten(ExeLayout, tx, ty)
  {
    var (tx, ty) := Jp2Tile(level, x, y);
    TileIndexInverse(3, 3, tx, ty);
  }

  /** As written, the parser compares the declared size with the JPEG 2000 tile
      coordinates, which are 0 and 0 at the origin tile: at every level, a cached
      artifact of that tile declaring a positive width or height is rejected, and
      the tile buffer is left as it was. */
  lemma OriginTileRejectedAsWritten(source: string, path: string, files: Files, launch: Launch,
                                    level: int32, x: int32, y: int32, buf: seq<short>)
    requires ValidRequest(level, x, y) && Jp2Tile(level, x, y) == (0, 0)
    requires ArtifactFor(source, level, x, y) in files && |buf| == TileLength(level)
    requires var h := DeclaredHeader(files[ArtifactFor(source, level, x, y)]);
      h.Some? && (h.value.width > 0 || h.value.height > 0)
    ensures var c := ComputeRectAsWritten(source, path, files, launch, level, x, y, buf);
      c.raised == Some(Oversized) && c.tile == buf && c.decoded == None
  {
    S2TileDimAt(level);
    assert |files[ArtifactFor(source, level, x, y)]| > 0;
  }

  /** Checked against the tile size, a cached artifact whose header declares a size
      within the rendered tile, followed by enough samples, fills the tile: at every
      tile of every level the buffer becomes the samples placed top-left, zeros
      elsewhere, and no exception escapes. */
  lemma ComputeRectFillsTile(source: string, path: string, files: Files, launch: Launch,
                             level: int32, x: int32, y: int32, buf: seq<short>, h: Header)
    requires ValidRequest(level, x, y)
    requires ArtifactFor(source, level, x, y) in files && |buf| == TileLength(level)
    requires DeclaredHeader(files[ArtifactFor(source, level, x, y)]) == Some(h)
    requires 0 <= h.width <= TileDim(S2Geometry, level).width && 0 <= h.height <= TileDim(S2Geometry, level).height
    requires 2 * Area(h) <= |Payload(files[ArtifactFor(source, level, x, y)])|
    ensures var c := ComputeRect(source, path, files, launch, level, x, y, buf);
      var d := TileDim(S2Geometry, level);
      && c.raised == None && c.decoded == None && c.files == files
      && c.tile == Place(ReadSamples(Payload(files[ArtifactFor(source, level, x, y)]), Area(h)),
                         h.width, h.height, d.width, d.height, 0)
  {
    S2TileDimAt(level);
    var d := TileDim(S2Geometry, level);
    ParsedTileIsPlacement(files[ArtifactFor(source, level, x, y)], h, d.width, d.height, d.width, d.height, buf);
  }

  /** On a complete 512 x 512 artifact of the origin tile at level 3 the two checks
      part: as written it is rejected, checked against the tile size it is copied. */
  lemma OriginTileExample(source: string, path: string, h: Header, samples: seq<short>, buf: seq<short>)
    requires WritableHeader(h) && h.width == 512 && h.height == 512
    requires |samples| == 512 * 512 && |buf| == 512 * 512
    ensures var files := map[ArtifactName(source, 3, 0, 0) := PgxBytes(h, samples)];
      && ComputeRectAsWritten(source, path, files, NotStarted, 3, 0, 0, buf).raised == Some(Oversized)
      && ComputeRectAsWritten(source, path, files, NotStarted, 3, 0, 0, buf).tile == buf
      && ComputeRect(source, path, files, NotStarted, 3, 0, 0, buf).raised == None
      && ComputeRect(source, path, files, NotStarted, 3, 0, 0, buf).tile == samples
  {
    S2LevelDims();
    assert Jp2Tile(3, 0, 0) == (0, 0);
    assert TileDim(S2Geometry, 3) == Dim(512, 512);
    ParsedHeaderOf(h, samples);
    PgxFullTile(h, samples, 512, 512, buf);
  }

  /** At levels 0 to 2 a rendered tile is 512 x 512 while the artifact holds a whole
      JPEG 2000 tile: even checked against the tile size, a complete level-0 artifact
      is rejected as oversized. */
  lemma CoarseLevelArtifactRejected(source: string, path: string, h: Header, samples: seq<short>, buf: seq<short>)
    requires WritableHeader(h) && h.width == 4096 && h.height == 4096
    requires |buf| == 512 * 512
    ensures var files := map[ArtifactName(source, 0, 0, 0) := PgxBytes(h, samples)];
      ComputeRect(source, path, files, NotStarted, 0, 0, 0, buf).raised == Some(Oversized)
  {
    S2LevelDims();
    assert Jp2Tile(0, 0, 0) == (0, 0);
    assert TileDim(S2Geometry, 0) == Dim(512, 512);
    ParsedHeaderOf(h, samples);
  }

  /** A decoder that cannot be started leaves a zero tile and no exception here,
      where `Jp2ExeImage` reports it. */
  lemma NotStartedZeroFills(source: string, path: string, level: int32, x: int32, y: int32, buf: seq<short>)
    requires ValidRequest(level, x, y)
    ensures var c := ComputeRect(source, path, map[], NotStarted, level, x, y, buf);
      c.tile == Zeros(|buf|) && c.raised == None && c.decoded.Some?
  {
  }
}

=== FILE: options.dfy ===
/** The optional value used wherever the modelled code returns `null` or signals
    a recoverable failure with a sentinel. */
module Options {

  datatype Option<+T> = None | Some(value: T) {

    /** The encapsulated value, or `default` when there is none. */
    function GetOr(default: T): T {
      match this
      case Some(v) => v
      case None => default
    }
  }
}

=== FILE: pgx.dfy ===
/** The tile-payload parser: the decoder writes each tile component as a PGX file,
    an ASCII header line `PG ML + <depth> <width> <height>` followed by
    `width * height` 16-bit samples, most significant byte first (`ML`). The parser
    checks the caller's buffer, reads and splits the header, rejects declared sizes
    above a limit, and either copies the samples straight into the buffer or places
    them top-left into it with zeros around them. */
module Pgx {
  import opened Options
  import opened JavaInt
  import opened Text
  import opened Raster

  /** The six tokens of a header line. The first three (`PG`, `ML`, `+`) are kept
      but never inspected; the last three must parse as `int`s. */
  datatype Header = Header(tag: string, order: string, sign: string, depth: int32, width: int32, height: int32)

  /** The header tokens of a line: `split(" ")` must give exactly six tokens and
      tokens 3 to 5 must be `int`s; `None` is the "Unexpected tile format" failure. */
  function ParseHeader(line: string): (h: Option<Header>)
    ensures h.Some? <==>
      |Split(line)| == 6 && forall i | 3 <= i < 6 :: ParseInt(Split(line)[i]).Some?
  {
    var t := Split(line);
    if |t| != 6 then None
    else match (ParseInt(t[3]), ParseInt(t[4]), ParseInt(t[5]))
      case (Some(depth), Some(width), Some(height)) => Some(Header(t[0], t[1], t[2], depth, width, height))
      case _ => None
  }

  /** Tags that can be written on a header line and read back as single tokens. */
  predicate IsTag(s: string) {
    NoSpace(s) && IsLatin1Line(s)
  }

  predicate WritableHeader(h: Header) {
    IsTag(h.tag) && IsTag(h.order) && IsTag(h.sign)
  }

  function HeaderTokens(h: Header): seq<string> {
    [h.tag, h.order, h.sign, FormatInt(h.depth), FormatInt(h.width), FormatInt(h.height)]
  }

  /** The header line a decoder writes for `h`. */
  function HeaderLine(h: Header): string {
    JoinSpaces(HeaderTokens(h))
  }

  /** Every header the decoder can write parses back to itself. */
  lemma HeaderRoundTrip(h: Header)
    requires WritableHeader(h)
    ensures ParseHeader(HeaderLine(h)) == Some(h)
  {
    var t := HeaderTokens(h);
    forall i | 0 <= i < |t|
      ensures NoSpace(t[i])
    {
    }
    SplitJoin(t);
    FormatIntRoundTrip(h.depth);
    FormatIntRoundTrip(h.width);
    FormatIntRoundTrip(h.height);
  }

  lemma {:induction false} JoinLatin1(t: seq<string>)
    requires |t| >= 1
    requires forall i | 0 <= i < |t| :: IsLatin1Line(t[i])
    ensures IsLatin1Line(JoinSpaces(t))
    decreases |t|
  {
    if |t| > 1 {
      JoinLatin1(t[1..]);
    }
  }

  lemma HeaderLineLatin1(h: Header)
    requires WritableHeader(h)
    ensures IsLatin1Line(HeaderLine(h))
  {
    JoinLatin1(HeaderTokens(h));
  }

  // ---------------------------------------------------------------- samples

  /** One big-endian sample read as a Java `short`. */
  function SampleOf(hi: byte, lo: byte): short {
    Narrow(hi * 0x100 + lo)
  }

  /** `readFully(short[], 0, n)` on a big-endian stream: the first `n` byte pairs. */
  function ReadSamples(b: seq<byte>, n: nat): (s: seq<short>)
    requires 2 * n <= |b|
    ensures |s| == n
  {
    seq(n, i requires 0 <= i < n => SampleOf(b[2 * i], b[2 * i + 1]))
  }

  function HighByte(v: short): byte {
    (v % 0x1_0000) / 0x100
  }

  function LowByte(v: short): byte {
    v % 0x100
  }

  /** Samples written most significant byte first. */
  function SampleBytes(s: seq<short>): (b: seq<byte>)
    ensures |b| == 2 * |s|
  {
    seq(2 * |s|, j requires 0 <= j < 2 * |s| => if j % 2 == 0 then HighByte(s[j / 2]) else LowByte(s[j / 2]))
  }

  lemma SampleRoundTrip(v: short)
    ensures SampleOf(HighByte(v), LowByte(v)) == v
  {
    var u := v % 0x1_0000;
    assert HighByte(v) * 0x100 + LowByte(v) == u;
  }

  /** Reading samples back from their bytes gives the samples, whatever follows. */
  lemma SamplesRoundTrip(s: seq<short>, rest: seq<byte>)
    ensures 2 * |s| <= |SampleBytes(s) + rest|
    ensures ReadSamples(SampleBytes(s) + rest, |s|) == s
  {
    var e := SampleBytes(s);
    var b := e + rest;
    var r := ReadSamples(b, |s|);
    forall i | 0 <= i < |s|
      ensures r[i] == s[i]
    {
      assert r[i] == SampleOf(b[2 * i], b[2 * i + 1]);
      var j := 2 * i;
      assert j / 2 == i && j % 2 == 0;
      assert (j + 1) / 2 == i && (j + 1) % 2 == 1;
      assert b[j] == e[j] == HighByte(s[i]);
      assert b[j + 1] == e[j + 1] == LowByte(s[i]);
      SampleRoundTrip(s[i]);
    }
    assert r == s;
  }

  /** A whole PGX artifact: header line, `\n`, samples. */
  function PgxBytes(h: Header, samples: seq<short>): seq<byte>
    requires WritableHeader(h)
  {
    HeaderLineLatin1(h);
    LineBytes(HeaderLine(h)) + [10] + SampleBytes(samples)
  }

  // ---------------------------------------------------------------- the parser

  /** What the parser can throw. The comments name the Java exception. */
  datatype Failure =
    | SizeMismatch      // IllegalStateException: tileWidth * tileHeight != tileData.length
    | NoHeader          // NullPointerException: readLine() returned null on an empty artifact
    | UnexpectedFormat  // IOException("Unexpected tile format")
    | Oversized         // IllegalStateException: declared width or height above the limit
    | NegativeSize      // NegativeArraySizeException from new short[width * height]
    | Truncated         // EOFException: fewer than width * height samples follow the header
    | DecoderNotStarted // IOException from starting the decoder process
  {
    /** The checked failures, the ones a `catch (IOException e)` catches. */
    predicate IsIOException() {
      UnexpectedFormat? || Truncated? || DecoderNotStarted?
    }
  }

  /** A buffer filled with `tile`, or an exception. The model treats the buffer as
      unchanged when an exception is raised. */
  datatype Outcome = Filled(tile: seq<short>) | Raised(failure: Failure)

  function Zeros(n: nat): (z: seq<short>)
    ensures |z| == n && forall i | 0 <= i < n :: z[i] == 0
  {
    seq(n, _ => 0)
  }

  /** Tile sizes the parser is handed: nonnegative, with a product that is an `int`. */
  predicate TileSized(tw: int, th: int) {
    0 <= tw && 0 <= th && tw * th <= MAX_INT
  }

  /** The header of an artifact, if its first line is one. */
  function DeclaredHeader(file: seq<byte>): Option<Header> {
    var (line, _) := ReadLine(file);
    if line.None? then None else ParseHeader(line.value)
  }

  /** The bytes after the header line. */
  function Payload(file: seq<byte>): seq<byte> {
    ReadLine(file).1
  }

  /** The number of samples a header with nonnegative sides declares. */
  function Area(h: Header): nat
    requires 0 <= h.width && 0 <= h.height
  {
    MulNonneg(h.width, h.height);
    h.width * h.height
  }

  /** The declared size of a header that passed the limit check, when positive,
      fits the tile, so its `int` product is exact. */
  lemma DeclaredFits(w: int32, h: int32, tw: int, th: int)
    requires TileSized(tw, th) && w <= tw && h <= th
    ensures 0 <= w && 0 <= h ==> w * h <= tw * th && Mul32(w, h) == w * h
  {
    if 0 <= w && 0 <= h {
      MulMono(w, tw, h);
      MulMono(h, th, tw);
    }
  }

  /** The branches after the limit check, for a buffer of `tw * th` samples. */
  function PlaceDeclared(h: Header, payload: seq<byte>, tw: int, th: int, limitW: int, limitH: int): (o: Outcome)
    requires TileSized(tw, th) && limitW <= tw && limitH <= th
    ensures o.Filled? ==> |o.tile| == tw * th
  {
    if h.width > limitW || h.height > limitH then Raised(Oversized)
    else
      var n := Mul32(h.width, h.height);
      if n == tw * th then
        if |payload| < 2 * n then Raised(Truncated) else Filled(ReadSamples(payload, n))
      else if n < tw * th then
        if n < 0 then Raised(NegativeSize)
        else if |payload| < 2 * n then Raised(Truncated)
        else
          DeclaredFits(h.width, h.height, tw, th);
          Filled(Place(ReadSamples(payload, n), h.width, h.height, tw, th, 0))
      else
        Filled(Zeros(tw * th))
  }

  /** `readTileData(File, short[])` for a tile of `tw x th` samples, with declared
      sizes checked against `limitW x limitH`. The buffer length is checked before
      the artifact is opened. (The limits are the tile sides in `Jp2ExeImage`; see
      `ParseTileCheckingCoords` for the Sentinel-2 reader.) */
  function ReadTileData(file: seq<byte>, tw: int, th: int, limitW: int, limitH: int, buf: seq<short>): (o: Outcome)
    requires TileSized(tw, th) && limitW <= tw && limitH <= th
    ensures tw * th != |buf| ==> o == Raised(SizeMismatch)
    ensures o.Filled? ==> |o.tile| == |buf|
    ensures tw * th == |buf| && |file| == 0 ==> o == Raised(NoHeader)
    ensures tw * th == |buf| && |file| > 0 && DeclaredHeader(file).None? ==> o == Raised(UnexpectedFormat)
    ensures tw * th == |buf| && DeclaredHeader(file).Some? &&
      (DeclaredHeader(file).value.width > limitW || DeclaredHeader(file).value.height > limitH)
      ==> o == Raised(Oversized)
  {
    if tw * th != |buf| then Raised(SizeMismatch)
    else if |file| == 0 then Raised(NoHeader)
    else match DeclaredHeader(file)
      case None => Raised(UnexpectedFormat)
      case Some(h) => PlaceDeclared(h, Payload(file), tw, th, limitW, limitH)
  }

  /** The parser with the declared size checked against the tile itself, as in
      `Jp2ExeImage`, and as the Sentinel-2 reader evidently intends. */
  function ParseTile(file: seq<byte>, tw: int, th: int, buf: seq<short>): (o: Outcome)
    requires TileSized(tw, th)
    ensures tw * th != |buf| ==> o == Raised(SizeMismatch)
    ensures tw * th == |buf| && DeclaredHeader(file).Some? &&
      (DeclaredHeader(file).value.width > tw || DeclaredHeader(file).value.height > th)
      ==> o == Raised(Oversized)
    ensures o.Filled? ==> |o.tile| == |buf|
  {
    ReadTileData(file, tw, th, tw, th, buf)
  }

  /** `Sentinel2ProductReader2.Jp2ExeOpImage.readTileData` as written: the declared
      size is compared with the JPEG 2000 tile coordinates, not the tile sides. */
  function ParseTileCheckingCoords(file: seq<byte>, tw: int, th: int, jp2TileX: int, jp2TileY: int, buf: seq<short>): (o: Outcome)
    requires TileSized(tw, th) && jp2TileX <= tw && jp2TileY <= th
    ensures tw * th != |buf| ==> o == Raised(SizeMismatch)
    ensures tw * th == |buf| && DeclaredHeader(file).Some? &&
      (DeclaredHeader(file).value.width > jp2TileX || DeclaredHeader(file).value.height > jp2TileY)
      ==> o == Raised(Oversized)
    ensures o.Filled? ==> |o.tile| == |buf|
  {
    ReadTileData(file, tw, th, jp2TileX, jp2TileY, buf)
  }

  // ---------------------------------------------------------------- properties

  /** Two sizes within the tile cover the same area only if both are the tile's,
      unless the tile is empty; and they never cover more. */
  lemma SameAreaSameShape(w: int, h: int, tw: int, th: int)
    requires 0 <= w <= tw && 0 <= h <= th
    ensures w * h <= tw * th
    ensures w * h == tw * th && 0 < tw * th ==> w == tw && h == th
  {
    MulMono(w, tw, h);
    MulMono(h, th, tw);
    if w < tw && 0 < h {
      MulStrict(w, tw, h);
    }
    if h < th && 0 < tw {
      MulStrict(h, th, tw);
    }
  }

  /** For a declared size between zero and the tile size, both copy branches follow
      the one top-left placement rule: the buffer becomes the first `width * height`
      samples after the header placed top-left, zeros elsewhere. In particular the
      all-zero fallback is never taken, and the direct copy happens only when the
      declared size is the tile size (or the tile is empty). */
  lemma DeclaredIsPlacement(h: Header, payload: seq<byte>, tw: int, th: int, limitW: int, limitH: int)
    requires TileSized(tw, th) && limitW <= tw && limitH <= th
    requires 0 <= h.width <= limitW && 0 <= h.height <= limitH
    requires 2 * Area(h) <= |payload|
    ensures Mul32(h.width, h.height) <= tw * th
    ensures Mul32(h.width, h.height) == tw * th ==> tw * th == 0 || (h.width == tw && h.height == th)
    ensures PlaceDeclared(h, payload, tw, th, limitW, limitH)
            == Filled(Place(ReadSamples(payload, Area(h)), h.width, h.height, tw, th, 0))
  {
    SameAreaSameShape(h.width, h.height, tw, th);
    DeclaredFits(h.width, h.height, tw, th);
    var n := Area(h);
    var src := ReadSamples(payload, n);
    if n == tw * th {
      if 0 < n {
        PlaceSameShape(src, tw, th, 0);
        assert src[..n] == src;
      } else {
        assert |Place(src, h.width, h.height, tw, th, 0)| == 0;
      }
    }
  }

  /** `DeclaredIsPlacement` for a whole artifact. */
  lemma ParsedTileIsPlacement(file: seq<byte>, h: Header, tw: int, th: int, limitW: int, limitH: int, buf: seq<short>)
    requires TileSized(tw, th) && limitW <= tw && limitH <= th && tw * th == |buf|
    requires DeclaredHeader(file) == Some(h)
    requires 0 <= h.width <= limitW && 0 <= h.height <= limitH
    requires 2 * Area(h) <= |Payload(file)|
    ensures ReadTileData(file, tw, th, limitW, limitH, buf)
            == Filled(Place(ReadSamples(Payload(file), Area(h)), h.width, h.height, tw, th, 0))
  {
    ReadsDeclaredHeader(file, h, tw, th, limitW, limitH, buf);
    DeclaredIsPlacement(h, Payload(file), tw, th, limitW, limitH);
  }

  /** Past the buffer check, an artifact with a header goes to the declared-size branches. */
  lemma ReadsDeclaredHeader(file: seq<byte>, h: Header, tw: int, th: int, limitW: int, limitH: int, buf: seq<short>)
    requires TileSized(tw, th) && limitW <= tw && limitH <= th && tw * th == |buf|
    requires DeclaredHeader(file) == Some(h)
    ensures ReadTileData(file, tw, th, limitW, limitH, buf) == PlaceDeclared(h, Payload(file), tw, th, limitW, limitH)
  {
    assert |file| > 0;
  }

  /** A written artifact parses back: with a declared size within the tile, the
      buffer becomes the written samples placed top-left, zero elsewhere. */
  lemma PgxRoundTrip(h: Header, samples: seq<short>, trailing: seq<byte>, tw: int, th: int, buf: seq<short>)
    requires WritableHeader(h)
    requires TileSized(tw, th) && tw * th == |buf|
    requires 0 <= h.width <= tw && 0 <= h.height <= th && |samples| == Area(h)
    ensures ParseTile(PgxBytes(h, samples) + trailing, tw, th, buf)
            == Filled(Place(samples, h.width, h.height, tw, th, 0))
  {
    var file := PgxBytes(h, samples) + trailing;
    HeaderLineLatin1(h);
    assert file == LineBytes(HeaderLine(h)) + [10] + (SampleBytes(samples) + trailing);
    ReadLineRoundTrip(HeaderLine(h), SampleBytes(samples) + trailing);
    HeaderRoundTrip(h);
    assert DeclaredHeader(file) == Some(h);
    assert Payload(file) == SampleBytes(samples) + trailing;
    SamplesRoundTrip(samples, trailing);
    ParsedTileIsPlacement(file, h, tw, th, tw, th, buf);
  }

  /** An artifact declaring exactly the tile size is copied into the buffer as is. */
  lemma PgxFullTile(h: Header, samples: seq<short>, tw: int, th: int, buf: seq<short>)
    requires WritableHeader(h)
    requires TileSized(tw, th) && tw * th == |buf|
    requires h.width == tw && h.height == th && |samples| == tw * th
    ensures ParseTile(PgxBytes(h, samples), tw, th, buf) == Filled(samples)
  {
    assert PgxBytes(h, samples) + [] == PgxBytes(h, samples);
    PgxRoundTrip(h, samples, [], tw, th, buf);
    PlaceSameShape(samples, tw, th, 0);
    assert samples[..tw * th] == samples;
  }

  /** An artifact cut short after its header fails with an end-of-file error. (The
      samples `readFully` writes before that error are not modelled.) */
  lemma TruncatedPayloadRaises(file: seq<byte>, tw: int, th: int, buf: seq<short>)
    requires TileSized(tw, th) && tw * th == |buf|
    requires DeclaredHeader(file).Some?
    requires var h := DeclaredHeader(file).value;
      0 <= h.width <= tw && 0 <= h.height <= th && |Payload(file)| < 2 * Area(h)
    ensures ParseTile(file, tw, th, buf) == Raised(Truncated)
  {
    var h := DeclaredHeader(file).value;
    SameAreaSameShape(h.width, h.height, tw, th);
    assert |file| > 0;
  }

  /** Declared sizes are never checked for sign, so a negative pair passes the limit
      check and its `int` product picks the branch. On the 128 x 128 tile of level 5,
      `-200 x -200` declares 40000 samples, more than the buffer holds, and the
      parser takes the all-zero fallback. */
  lemma NegativeDeclarationZeroFills(buf: seq<short>)
    requires |buf| == 128 * 128
    ensures var h := Header("PG", "ML", "+", 16, -200, -200);
      WritableHeader(h) && ParseTile(PgxBytes(h, []), 128, 128, buf) == Filled(Zeros(128 * 128))
  {
    ParsedHeaderOf(Header("PG", "ML", "+", 16, -200, -200), []);
  }

  /** `-3 x -3` on the same tile declares 9 samples, fewer than the buffer holds, so
      it takes the padding branch instead: without 9 samples after the header the
      read fails, and with them every cell is zero, since no column lies in
      `[0, -3)`. */
  lemma SmallNegativeDeclarationPads(samples: seq<short>, buf: seq<short>)
    requires |samples| == 9 && |buf| == 128 * 128
    ensures var h := Header("PG", "ML", "+", 16, -3, -3);
      && WritableHeader(h)
      && ParseTile(PgxBytes(h, []), 128, 128, buf) == Raised(Truncated)
      && ParseTile(PgxBytes(h, samples), 128, 128, buf) == Filled(Zeros(128 * 128))
  {
    var h := Header("PG", "ML", "+", 16, -3, -3);
    assert Mul32(-3, -3) == 9;
    ParsedHeaderOf(h, []);
    ReadsDeclaredHeader(PgxBytes(h, []), h, 128, 128, 128, 128, buf);
    ParsedHeaderOf(h, samples);
    ReadsDeclaredHeader(PgxBytes(h, samples), h, 128, 128, 128, 128, buf);
    PadsNegativeDeclaration(h, SampleBytes(samples));
  }

  lemma PadsNegativeDeclaration(h: Header, payload: seq<byte>)
    requires h.width == -3 && h.height == -3 && 18 <= |payload|
    ensures PlaceDeclared(h, payload, 128, 128, 128, 128) == Filled(Zeros(128 * 128))
  {
    assert Mul32(-3, -3) == 9;
    var src := ReadSamples(payload, 9);
    PlaceEmptySource(src, -3, -3, 128, 128, 0 as short);
  }

  /** A declared `1 x -1` tile has a negative product, and allocating the sample
      array for it fails. */
  lemma NegativeProductRaises(buf: seq<short>)
    requires |buf| == 4
    ensures var h := Header("PG", "ML", "+", 16, 1, -1);
      WritableHeader(h) && ParseTile(PgxBytes(h, []), 2, 2, buf) == Raised(NegativeSize)
  {
    ParsedHeaderOf(Header("PG", "ML", "+", 16, 1, -1), []);
  }

  lemma ParsedHeaderOf(h: Header, samples: seq<short>)
    requires WritableHeader(h)
    ensures |PgxBytes(h, samples)| > 0
    ensures DeclaredHeader(PgxBytes(h, samples)) == Some(h)
    ensures Payload(PgxBytes(h, samples)) == SampleBytes(samples)
  {
    HeaderLineLatin1(h);
    ReadLineRoundTrip(HeaderLine(h), SampleBytes(samples));
    HeaderRoundTrip(h);
  }

  /** The edge-tile example: a 3 x 2 payload in a 4 x 4 tile fills columns 0 to 2 of
      rows 0 and 1 in order, and zeros column 3 and rows 2 and 3. */
  lemma EdgeTileExample(s: seq<short>)
    requires |s| == 6
    ensures Place(s, 3, 2, 4, 4, 0) ==
      [s[0], s[1], s[2], 0, s[3], s[4], s[5], 0, 0, 0, 0, 0, 0, 0, 0, 0]
  {
    var p := Place(s, 3, 2, 4, 4, 0);
    var e: seq<short> := [s[0], s[1], s[2], 0, s[3], s[4], s[5], 0, 0, 0, 0, 0, 0, 0, 0, 0];
    forall k | 0 <= k < 16
      ensures p[k] == e[k]
    {
      assert p[k] == PlacedAt(s, 3, 2, k % 4, k / 4, 0);
      if k < 4 {
        assert k / 4 == 0 && k % 4 == k;
      } else if k < 8 {
        assert k / 4 == 1 && k % 4 == k - 4;
      } else {
        assert k / 4 >= 2;
      }
    }
  }
}

=== FILE: raster.dfy ===
/** The placement rule shared by the Java tile parser and the native copy routine:
    a `sw x sh` row-major source is put into the top-left corner of a `dw x dh`
    row-major destination, every other destination cell becomes zero, and a source
    larger than the destination is cropped to its top-left corner. */
module Raster {
  import opened JavaInt

  /** Position of column `x`, row `y` in a row-major raster `stride` cells wide. */
  function Index(stride: int, x: int, y: int): int {
    y * stride + x
  }

  /** Every cell of a `w x h` raster has its position inside `[0, w * h)`. */
  lemma IndexBounds(w: int, h: int, x: int, y: int)
    requires 0 <= x < w && 0 <= y < h
    ensures 0 <= Index(w, x, y) < w * h
  {
    MulNonneg(y, w);
    MulMono(y, h - 1, w);
  }

  /** Division and remainder by the stride recover column and row from a position. */
  lemma IndexInverse(w: int, x: int, y: int)
    requires 0 <= x < w && 0 <= y
    ensures Index(w, x, y) / w == y && Index(w, x, y) % w == x
  {
    DivUnique(Index(w, x, y), w, y, x);
  }

  /** The source holds every cell a placement reads: at least `sw * sh` samples when
      both sides are positive (a source with a side of zero or less is never read). */
  predicate Covers<T>(src: seq<T>, sw: int, sh: int) {
    0 < sw && 0 < sh ==> sw * sh <= |src|
  }

  /** The value placed at column `x`, row `y`. */
  function PlacedAt<T>(src: seq<T>, sw: int, sh: int, x: int, y: int, zero: T): T
    requires Covers(src, sw, sh) && 0 <= x && 0 <= y
  {
    if x < sw && y < sh then
      IndexBounds(sw, sh, x, y);
      src[Index(sw, x, y)]
    else
      zero
  }

  /** The `dw x dh` destination of a top-left placement, built position by position. */
  function Place<T>(src: seq<T>, sw: int, sh: int, dw: nat, dh: nat, zero: T): (r: seq<T>)
    requires Covers(src, sw, sh)
    ensures |r| == dw * dh
  {
    seq(dw * dh, k requires 0 <= k < dw * dh => PlacedAt(src, sw, sh, k % dw, k / dw, zero))
  }

  /** One destination cell of a placement holds the value placed at its column and row. */
  lemma PlaceCell<T>(src: seq<T>, sw: int, sh: int, dw: nat, dh: nat, zero: T, x: int, y: int)
    requires Covers(src, sw, sh) && 0 <= x < dw && 0 <= y < dh
    ensures 0 <= Index(dw, x, y) < dw * dh
    ensures Place(src, sw, sh, dw, dh, zero)[Index(dw, x, y)] == PlacedAt(src, sw, sh, x, y, zero)
  {
    IndexBounds(dw, dh, x, y);
    IndexInverse(dw, x, y);
  }

  /** The placement rule cell by cell: cell (x, y) of the destination is cell (x, y)
      of the source when x < sw and y < sh, and zero otherwise; each such source cell
      lies inside the first `sw * sh` samples. */
  lemma PlaceCells<T>(src: seq<T>, sw: int, sh: int, dw: nat, dh: nat, zero: T)
    requires Covers(src, sw, sh)
    ensures forall x, y | 0 <= x < dw && 0 <= y < dh ::
      && 0 <= Index(dw, x, y) < dw * dh
      && (x < sw && y < sh ==> 0 <= Index(sw, x, y) < sw * sh <= |src|)
      && Place(src, sw, sh, dw, dh, zero)[Index(dw, x, y)] ==
         (if x < sw && y < sh then src[Index(sw, x, y)] else zero)
  {
    forall x, y | 0 <= x < dw && 0 <= y < dh
      ensures 0 <= Index(dw, x, y) < dw * dh
      ensures x < sw && y < sh ==> 0 <= Index(sw, x, y) < sw * sh <= |src|
      ensures Place(src, sw, sh, dw, dh, zero)[Index(dw, x, y)] ==
         (if x < sw && y < sh then src[Index(sw, x, y)] else zero)
    {
      IndexBounds(dw, dh, x, y);
      IndexInverse(dw, x, y);
      if x < sw && y < sh {
        IndexBounds(sw, sh, x, y);
      }
    }
  }

  /** When source and destination have the same shape, placing is copying: the
      destination is the first `w * h` source samples in order. */
  lemma PlaceSameShape<T>(src: seq<T>, w: nat, h: nat, zero: T)
    requires w * h <= |src|
    ensures Place(src, w, h, w, h, zero) == src[..w * h]
  {
    var r := Place(src, w, h, w, h, zero);
    forall k | 0 <= k < w * h
      ensures r[k] == src[k]
    {
      var x, y := k % w, k / w;
      assert k == Index(w, x, y);
      IndexInverse(w, x, y);
    }
  }

  /** A source with no positive side places nothing: the destination is all zero. */
  lemma PlaceEmptySource<T>(src: seq<T>, sw: int, sh: int, dw: nat, dh: nat, zero: T)
    requires sw <= 0 || sh <= 0
    ensures Place(src, sw, sh, dw, dh, zero) == seq(dw * dh, _ => zero)
  {
  }

  /** The nested loops of the tile parser's padding branch and of the native copy
      routine: rows outer, columns inner, each destination cell written once, into a
      buffer holding the caller's previous contents. The result is the placement,
      whatever those contents were. */
  method PlaceLoop<T>(buf: seq<T>, src: seq<T>, sw: int, sh: int, dw: nat, dh: nat, zero: T)
    returns (r: seq<T>)
    requires |buf| == dw * dh
    requires Covers(src, sw, sh)
    ensures r == Place(src, sw, sh, dw, dh, zero)
    ensures forall x, y | 0 <= x < dw && 0 <= y < dh ::
      0 <= Index(dw, x, y) < |r| && r[Index(dw, x, y)] == PlacedAt(src, sw, sh, x, y, zero)
  {
    ghost var p := Place(src, sw, sh, dw, dh, zero);
    var a := new T[|buf|](i requires 0 <= i < |buf| => buf[i]);
    var y := 0;
    while y < dh
      invariant 0 <= y <= dh
      invariant a.Length == dw * dh && y * dw <= dw * dh
      invariant forall k | 0 <= k < y * dw :: a[k] == p[k]
    {
      MulMono(y + 1, dh, dw);
      var x := 0;
      while x < dw
        invariant 0 <= x <= dw
        invariant y * dw + x <= dw * dh
        invariant forall k | 0 <= k < y * dw + x :: a[k] == p[k]
      {
        IndexBounds(dw, dh, x, y);
        IndexInverse(dw, x, y);
        if x < sw && y < sh {
          IndexBounds(sw, sh, x, y);
          a[y * dw + x] := src[y * sw + x];
        } else {
          a[y * dw + x] := zero;
        }
        x := x + 1;
      }
      assert y * dw + dw == (y + 1) * dw;
      y := y + 1;
    }
    assert y * dw == dw * dh;
    r := a[..];
    forall x, y | 0 <= x < dw && 0 <= y < dh
      ensures 0 <= Index(dw, x, y) < |r| && r[Index(dw, x, y)] == PlacedAt(src, sw, sh, x, y, zero)
    {
      IndexBounds(dw, dh, x, y);
      IndexInverse(dw, x, y);
    }
  }
}

=== FILE: text.dfy ===
/** The pieces of `java.lang` and `javax.imageio.stream` text handling the tile parser
    and the file-name code rely on: decimal rendering of an `int` (`%d`,
    `Integer.toString`), `Integer.parseInt`, `String.split(" ")`, and
    `ImageInputStream.readLine`, which reads one byte per character. */
module Text {
  import opened Options
  import opened JavaInt

  predicate IsDigit(c: char) {
    '0' <= c <= '9'
  }

  predicate AllDigits(s: string) {
    forall i | 0 <= i < |s| :: IsDigit(s[i])
  }

  function DigitChar(d: nat): (c: char)
    requires d < 10
    ensures IsDigit(c) && c as int - '0' as int == d
  {
    ('0' as int + d) as char
  }

  /** Decimal digits of `n`, most significant first, without leading zeros. */
  function Digits(n: nat): (s: string)
    ensures 1 <= |s| && AllDigits(s)
    ensures |s| > 1 ==> s[0] != '0'
    decreases n
  {
    if n < 10 then [DigitChar(n)] else Digits(n / 10) + [DigitChar(n % 10)]
  }

  /** The number a string of decimal digits denotes (leading zeros allowed). */
  function DigitsValue(s: string): nat
    requires AllDigits(s)
  {
    if |s| == 0 then 0 else 10 * DigitsValue(s[..|s| - 1]) + (s[|s| - 1] as int - '0' as int)
  }

  /** Reading the digits of `n` back gives `n`. */
  lemma {:induction false} DigitsValueOfDigits(n: nat)
    ensures DigitsValue(Digits(n)) == n
  {
    if n >= 10 {
      var s := Digits(n);
      assert s[..|s| - 1] == Digits(n / 10);
      DigitsValueOfDigits(n / 10);
    }
  }

  /** Java's decimal rendering of an integer (`%d`, `Integer.toString`): a minus sign
      for negative values, then the digits of the magnitude. */
  function FormatInt(n: int): (s: string)
    ensures 1 <= |s|
    ensures forall i | 0 <= i < |s| :: IsDigit(s[i]) || (i == 0 && s[i] == '-')
    ensures s[0] == '-' <==> n < 0
  {
    if n < 0 then "-" + Digits(-n) else Digits(n)
  }

  /** `Integer.parseInt(s)`; `None` stands for the NumberFormatException. An optional
      leading `+` or `-` is followed by at least one digit, and the value must fit in
      an `int`. (`Character.digit` also accepts non-ASCII decimal digits; none of
      them is a single-byte character, and single bytes are all the header line and
      the `\d` groups of a file name can hold.) */
  function ParseInt(s: string): (r: Option<int32>)
    ensures r.Some? ==> 1 <= |s| && (IsDigit(s[0]) || s[0] == '-' || s[0] == '+')
    ensures r.Some? ==> forall i | 0 < i < |s| :: IsDigit(s[i])
    ensures r.Some? && r.value < 0 ==> s[0] == '-'
  {
    if |s| == 0 then None
    else
      var body := if s[0] == '-' || s[0] == '+' then s[1..] else s;
      if |body| == 0 || !AllDigits(body) then None
      else
        var d: int := DigitsValue(body);
        var v := if s[0] == '-' then -d else d;
        if IsInt(v) then Some(v) else None
  }

  /** `Integer.parseInt` reads back what `%d` wrote, for every `int`. */
  lemma FormatIntRoundTrip(n: int32)
    ensures ParseInt(FormatInt(n)) == Some(n)
  {
    var m: int := n;
    var s := FormatInt(m);
    if m < 0 {
      assert s[0] == '-' && s[1..] == Digits(-m);
      DigitsValueOfDigits(-m);
    } else {
      assert s == Digits(m) && IsDigit(s[0]);
      DigitsValueOfDigits(m);
    }
  }

  /** Distinct integers render differently. */
  lemma FormatIntInjective(a: int, b: int)
    requires FormatInt(a) == FormatInt(b)
    ensures a == b
  {
    if a < 0 {
      var m: nat, n: nat := -a, -b;
      assert FormatInt(a) == "-" + Digits(m) && FormatInt(b) == "-" + Digits(n);
      assert Digits(m) == FormatInt(a)[1..] == Digits(n);
      DigitsInjective(m, n);
    } else {
      DigitsInjective(a, b);
    }
  }

  lemma DigitsInjective(m: nat, n: nat)
    requires Digits(m) == Digits(n)
    ensures m == n
  {
    DigitsValueOfDigits(m);
    DigitsValueOfDigits(n);
  }

  // ---------------------------------------------------------------- split

  /** The substrings between consecutive spaces, empty ones included: always one
      more piece than the string has spaces. */
  function Pieces(s: string): (p: seq<string>)
    ensures |p| >= 1
    decreases |s|
  {
    if |s| == 0 then [""]
    else
      var rest := Pieces(s[1..]);
      if s[0] == ' ' then [""] + rest else [[s[0]] + rest[0]] + rest[1..]
  }

  function DropTrailingEmpty(p: seq<string>): seq<string> {
    if |p| > 0 && p[|p| - 1] == "" then DropTrailingEmpty(p[..|p| - 1]) else p
  }

  /** `s.split(" ")`: split at every single space and drop trailing empty tokens;
      a string without any space comes back whole, even when it is empty. */
  function Split(s: string): seq<string> {
    if ' ' !in s then [s] else DropTrailingEmpty(Pieces(s))
  }

  /** Tokens joined with single spaces, the inverse of `Split`. */
  function JoinSpaces(t: seq<string>): string
    requires |t| >= 1
  {
    if |t| == 1 then t[0] else t[0] + " " + JoinSpaces(t[1..])
  }

  predicate NoSpace(s: string) {
    ' ' !in s
  }

  /** Splitting at spaces loses nothing: the pieces joined back give the string,
      and no piece holds a space. */
  lemma {:induction false} PiecesJoin(s: string)
    ensures JoinSpaces(Pieces(s)) == s
    ensures forall i | 0 <= i < |Pieces(s)| :: NoSpace(Pieces(s)[i])
    decreases |s|
  {
    if |s| > 0 {
      var rest := Pieces(s[1..]);
      PiecesJoin(s[1..]);
      if s[0] == ' ' {
        assert Pieces(s) == [""] + rest;
        assert ([""] + rest)[1..] == rest;
        assert s == "" + " " + s[1..];
      } else {
        var p := Pieces(s);
        assert p == [[s[0]] + rest[0]] + rest[1..];
        if |rest| == 1 {
          assert s == [s[0]] + s[1..];
        } else {
          assert p[1..] == rest[1..];
          assert JoinSpaces(rest) == rest[0] + " " + JoinSpaces(rest[1..]);
          assert s == [s[0]] + s[1..];
        }
      }
    }
  }

  /** A space-free prefix followed by a space is exactly the first piece. */
  lemma {:induction false} PiecesCons(a: string, b: string)
    requires NoSpace(a)
    ensures Pieces(a + " " + b) == [a] + Pieces(b)
    decreases |a|
  {
    if |a| == 0 {
      assert a + " " + b == [' '] + b;
      assert (a + " " + b)[1..] == b;
    } else {
      var s := a + " " + b;
      assert s[1..] == a[1..] + " " + b;
      PiecesCons(a[1..], b);
      assert [a[0]] + a[1..] == a;
    }
  }

  /** A space-free string is a single piece. */
  lemma {:induction false} PiecesSingle(a: string)
    requires NoSpace(a)
    ensures Pieces(a) == [a]
    decreases |a|
  {
    if |a| > 0 {
      PiecesSingle(a[1..]);
      assert [a[0]] + a[1..] == a;
    }
  }

  lemma {:induction false} PiecesOfJoin(t: seq<string>)
    requires |t| >= 1
    requires forall i | 0 <= i < |t| :: NoSpace(t[i])
    ensures Pieces(JoinSpaces(t)) == t
    decreases |t|
  {
    if |t| == 1 {
      PiecesSingle(t[0]);
    } else {
      PiecesOfJoin(t[1..]);
      PiecesCons(t[0], JoinSpaces(t[1..]));
      assert [t[0]] + t[1..] == t;
    }
  }

  lemma JoinHasSpace(t: seq<string>)
    requires |t| >= 2
    ensures ' ' in JoinSpaces(t)
  {
    var s := JoinSpaces(t);
    assert s == t[0] + " " + JoinSpaces(t[1..]);
    assert s[|t[0]|] == ' ';
  }

  /** `split(" ")` undoes joining with single spaces, provided no token holds a space
      and the last token is not empty (trailing empty tokens would be dropped). */
  lemma SplitJoin(t: seq<string>)
    requires |t| >= 1 && t[|t| - 1] != ""
    requires forall i | 0 <= i < |t| :: NoSpace(t[i])
    ensures Split(JoinSpaces(t)) == t
  {
    if |t| >= 2 {
      SplitJoinMany(t);
    } else {
      assert NoSpace(t[0]);
      assert JoinSpaces(t) == t[0];
    }
  }

  lemma SplitJoinMany(t: seq<string>)
    requires |t| >= 2 && t[|t| - 1] != ""
    requires forall i | 0 <= i < |t| :: NoSpace(t[i])
    ensures Split(JoinSpaces(t)) == t
  {
    JoinHasSpace(t);
    PiecesOfJoin(t);
    assert DropTrailingEmpty(t) == t;
  }

  // ---------------------------------------------------------------- readLine

  predicate IsLineEnd(c: char) {
    c == '\n' || c == '\r'
  }

  /** The characters of one line and the bytes after its terminator: reading stops
      at `\n`, at `\r` (swallowing a `\n` right behind it) or at the end of input. */
  function LineBody(b: seq<byte>): (r: (string, seq<byte>))
    ensures |r.0| <= |b| && |r.1| <= |b|
    ensures forall i | 0 <= i < |r.0| :: !IsLineEnd(r.0[i]) && r.0[i] as int < 0x100
    decreases |b|
  {
    if |b| == 0 then ("", [])
    else if b[0] == 10 then ("", b[1..])
    else if b[0] == 13 then ("", if |b| > 1 && b[1] == 10 then b[2..] else b[1..])
    else
      var (line, rest) := LineBody(b[1..]);
      ([b[0] as char] + line, rest)
  }

  /** `ImageInputStream.readLine()`: `None` (Java's `null`) only when the stream is
      already at its end; otherwise the line and what follows it. */
  function ReadLine(b: seq<byte>): (r: (Option<string>, seq<byte>))
    ensures r.0.None? <==> |b| == 0
    ensures r.0.Some? ==> forall i | 0 <= i < |r.0.value| :: !IsLineEnd(r.0.value[i])
    ensures |r.1| < |b| || |b| == 0
  {
    if |b| == 0 then (None, [])
    else
      var (line, rest) := LineBody(b);
      LineBodyShrinks(b);
      (Some(line), rest)
  }

  lemma {:induction false} LineBodyShrinks(b: seq<byte>)
    requires |b| > 0
    ensures |LineBody(b).1| < |b|
    decreases |b|
  {
    if b[0] != 10 && b[0] != 13 && |b| > 1 {
      LineBodyShrinks(b[1..]);
    }
  }

  predicate IsLatin1Line(s: string) {
    forall i | 0 <= i < |s| :: s[i] as int < 0x100 && !IsLineEnd(s[i])
  }

  /** The bytes of a single-byte line, one per character. */
  function LineBytes(s: string): (b: seq<byte>)
    requires IsLatin1Line(s)
    ensures |b| == |s|
  {
    seq(|s|, i requires 0 <= i < |s| => s[i] as int)
  }

  /** A line written as bytes and ended by `\n` reads back unchanged, and the
      stream is left exactly at the bytes after it. */
  lemma {:induction false} ReadLineRoundTrip(s: string, rest: seq<byte>)
    requires IsLatin1Line(s)
    ensures ReadLine(LineBytes(s) + [10] + rest) == (Some(s), rest)
  {
    LineBodyRoundTrip(s, rest);
  }

  lemma {:induction false} LineBodyRoundTrip(s: string, rest: seq<byte>)
    requires IsLatin1Line(s)
    ensures LineBody(LineBytes(s) + [10] + rest) == (s, rest)
    decreases |s|
  {
    var b := LineBytes(s) + [10] + rest;
    if |s| == 0 {
      assert b == [10] + rest;
      assert b[1..] == rest;
    } else {
      assert b[0] == s[0] as int;
      assert b[0] != 10 && b[0] != 13;
      assert LineBytes(s)[1..] == LineBytes(s[1..]);
      assert b[1..] == LineBytes(s[1..]) + [10] + rest;
      LineBodyRoundTrip(s[1..], rest);
      assert (b[0] as char) == s[0];
      assert [s[0]] + s[1..] == s;
    }
  }
}
